=== FILE: README.md ===
# Referral ETL: a Dafny model of the per-row logic

The repository cleans a gym-membership referral extract and flags referrals
whose reward does not fit the business rules. The model covers the row logic
that the pandas scripts apply, written as pure Dafny functions over immutable
values:

- **Identifier normalisation.** This is `clean_id` (module `Identifiers`), on
  top of Python's `str.strip`, ASCII `str.lower` and substring search (module
  `Text`).
- **Referral-source categories.** This is `get_source_category` (module
  `SourceCategory`).
- **Local time and zone choice.** These are `to_local` and the `final_tz`
  fallback (module `LocalTime`). Calendar months come from a proleptic
  Gregorian calendar (module `Calendar`).
- **Table operations.** The operations the timezone attachment uses are the
  row filter (`dropna`), first-occurrence deduplication (`drop_duplicates`)
  and the left join (`merge(how='left')`) (module `Joins`). Both variants of
  the timezone attachment are modelled: `src/time.py` and
  `src/timezone_cinversion.py` (module `ZoneResolution`).
- **Choice of referral file.** Both scripts pick the referral file from a
  directory listing, by two different rules (module `ReferralFile`).
- **Validity flags and rule table.** The flags are derived from an enriched
  row (module `Enrichment`). The rule table is `check_logic`: a
  first-match-wins list of seven rules (module `Rules`).
- **Final report.** This is the report projection with its synthetic row ids
  (module `Report`).

The Python functions defined twice (`clean_id`, `to_local`,
`get_source_category` in `src/time.py`, `src/timezone_cinversion.py` and
`src/fraud_check.py`) have identical bodies. Each is modelled once, and the
model serves both copies.

Conventions:

- Timestamps are integer seconds. A UTC instant and a naive local clock
  reading use the same scale.
- The time-zone database is a function parameter,
  `ZoneDb = (zone name, UTC instant) -> Option<offset seconds>`. `None`
  means an unknown zone: `pytz` raises, and `to_local` falls back.
- The current time ("now") is a parameter `clock`.
- Missing cells are `Option.None`.
- An absent optional column is a separate `None` in the row record, wherever
  the scripts treat an absent column differently from a missing cell.

## Model

| member | source | states |
|---|---|---|
| Identifiers.CleanId | src/time.py:45-49 | The result is missing exactly when the input is missing or its lower-cased text is "nan", "null" or "" (checked before stripping). |
| Identifiers.CleanIdShape | src/time.py:47-49 | A present result is a prefix of the whitespace-stripped input. It is 2 characters shorter exactly when the stripped text ends in ".0", and otherwise equal to it. |
| Identifiers.CleanIdFixpoint | src/time.py:46-49 | A text is left unchanged exactly when it is canonical: non-empty, no surrounding whitespace, no ".0" suffix, and not "nan"/"null" in any case. |
| Identifiers.FixpointIsCanonical | src/time.py:46-49 | One direction of the fixed-point characterisation: an unchanged text is canonical. |
| Identifiers.CleanIdOutputHead | src/time.py:47-48 | A non-empty result never starts with whitespace. |
| Identifiers.CleanIdIdempotentIff | src/time.py:46-49 | Normalising twice equals normalising once exactly when the first result is missing or canonical. |
| Identifiers.CleanIdOfTrimmed | src/time.py:47-49 | For a trimmed, non-missing text the result is the text with one ".0" suffix removed, if there is one. |
| Identifiers.CleanIdFloatSuffixExamples | src/time.py:48-49 | "123.0" becomes "123", and "123" stays "123". |
| Identifiers.CleanIdMissingExamples | src/time.py:46 | "", "NaN" and "NULL" become missing. |
| Identifiers.CleanIdDropsOneSuffix | src/time.py:48-49 | A non-missing text without leading whitespace and with one ".0" appended comes back without that suffix. |
| Identifiers.CleanIdKeepsDigits | src/time.py:46-49 | A non-empty run of digits is canonical and comes back unchanged. |
| Identifiers.CleanIdRepeatedSuffix | src/time.py:48 | Only one ".0" is removed per call: t+".0.0" becomes t+".0", which then becomes t. So the function is not idempotent. |
| Identifiers.CleanIdBlank | src/time.py:46-47 | A whitespace-only text becomes "" (the missing test runs before the strip). A second call makes it missing. |
| Identifiers.CleanIdPaddedNan | src/time.py:46-47 | A space-padded "nan" survives the first call as "nan" and becomes missing on the second. |
| Identifiers.CleanIdSpaceBeforeSuffix | src/time.py:47-48 | t+spaces+".0" becomes t+spaces, which then becomes t. A result can end in whitespace. |
| Text.LowerAbsorbsCase | src/fraud_check.py:21 | Lower-casing after any ASCII case change gives the same text, and so does upper-casing. |
| Text.Strip | src/time.py:47 | `str.strip` never lengthens a text. Its result has no whitespace (Python's `isspace` set) at either end. |
| Text.StripIsSlice | src/time.py:47 | The stripped text is a contiguous slice of the input with only whitespace cut away on both sides. |
| Text.StripFixpoint | src/time.py:47 | Stripping leaves a text unchanged exactly when it is empty or has no whitespace at either end. |
| Text.StripPadded | src/time.py:47 | Stripping whitespace padding around a trimmed text gives back that text. |
| SourceCategory.Classify | src/fraud_check.py:19-24 | Online exactly when the lower-cased source contains an online keyword. Offline exactly when it contains an offline keyword and no online one. Other exactly when it contains neither. |
| SourceCategory.LabelIsOneOfThree | src/fraud_check.py:22-24 | The label is always "Online", "Offline" or "Other", matching the category. |
| SourceCategory.OnlineHasPriority | src/fraud_check.py:22-23 | A source containing both an online and an offline keyword is Online. |
| SourceCategory.ClassifyIgnoresCase | src/fraud_check.py:21 | Upper- or lower-casing the source never changes its category. |
| SourceCategory.MissingSourceIsOther | src/timezone_cinversion.py:55-58 | A missing source (string form "nan") is Other. |
| SourceCategory.SignUpIsOnline | src/fraud_check.py:22 | "User Sign Up via App" is Online. |
| SourceCategory.WalkInIsOffline | src/fraud_check.py:23 | "Draft Transaction - Walk In" is Offline. |
| SourceCategory.ReferralCodeIsOther | src/fraud_check.py:24 | "Referral Code" is Other. |
| LocalTime.ToLocal | src/time.py:36-42 | The result is missing exactly when the time or zone is missing or the zone's text is "nan" in any case. Otherwise it is the instant plus the zone's offset at that instant, or the instant itself for an unknown zone. |
| LocalTime.ToLocalRecoversInstant | src/time.py:39-40 | For a known zone, subtracting the zone's offset from the local reading gives back the UTC instant. |
| LocalTime.UnknownZoneReadsAsUtc | src/time.py:41-42 | An unknown zone gives the UTC clock reading, the same as converting to a zero-offset zone. |
| LocalTime.NanZoneIsMissing | src/time.py:37 | Zone texts "nan", "NaN" and "NAN" give a missing local time. |
| LocalTime.SameDayConversion | src/time.py:39-40 | An offset that keeps the clock within the day keeps the calendar date and shifts the time of day by the offset. |
| LocalTime.FinalTz | src/time.py:112 | The final zone is missing exactly when both zones are missing. It is the referrer's zone when present, and otherwise the referee's. |
| LocalTime.UnresolvedZoneHasNoLocalTime | src/timezone_cinversion.py:103-106 | A referral with neither user's zone gets no local time. |
| Calendar.DateOfDay | src/fraud_check.py:96-97 | The civil date of a day number is a valid date, and it maps back to the same day number. |
| Calendar.DateRoundTrip | src/fraud_check.py:96-97 | Every valid date survives the round trip through its day number. |
| Calendar.DateUnique | src/fraud_check.py:96-97 | Two valid dates with the same day number are the same date. |
| Calendar.MonthOfIff | src/fraud_check.py:96-97 | A timestamp lies in month (y, m) exactly when it falls between that month's first second and the next month's. |
| Calendar.MonthOf | src/fraud_check.py:96-97 | The month of a timestamp is a month of the year (1 to 12), and the timestamp lies between that month's first second and the next month's. MonthOfIff proves that this month is the only such one. |
| Joins.Filter | src/timezone_cinversion.py:116 | Keeps exactly the rows satisfying the test, and never adds rows. |
| Joins.FilterCounts | src/timezone_cinversion.py:116 | Every copy of a row that passes the test is kept, and no copy of a row that fails it. |
| Joins.FilterIsSubsequence | src/timezone_cinversion.py:116 | Filtering keeps the survivors in their original relative order. |
| Joins.Dedup | src/time.py:99-100 | The result has pairwise distinct keys and only input rows. For every key, its first row is the first row with that key in the input. The kept rows stay in input order (a subsequence of the input). |
| Joins.Matching | src/time.py:103 | The matches of a left row are exactly the right rows satisfying the join condition, each as many times as it occurs on the right. There are none exactly when no right row satisfies it. |
| Joins.SingleMatchRow | src/time.py:103 | A left row with at most one match contributes exactly one output row: itself paired with its match, or with a missing right side. |
| Joins.JoinRow | src/time.py:103 | The rows a left row contributes all carry that left row. A row with a right side carries one of its matches, and every match appears. A missing right side occurs only when there is no match. |
| Joins.LeftJoin | src/time.py:103 | A left join is never shorter than its left side. Every output row pairs a left row with a right row satisfying the join condition, or with a missing right side. |
| Joins.LeftJoinComplete | src/timezone_cinversion.py:96-99 | Every (left row, matching right row) pair is an output row, and a left row without matches is kept with a missing right side. |
| Joins.LeftJoinRowCount | src/time.py:103-108 | A left join keeps the row count exactly when no left row has more than one match. |
| Joins.LeftJoinIsLookup | src/time.py:103-108 | When every left row has at most one match, output row i is left row i paired with its match, if any. |
| Joins.KeyLookup | src/time.py:99-103 | Joining on a unique key gives at most one match: the first right row with that key. |
| Joins.NoMatchIsMissing | src/time.py:103 | A left row without matches yields a single row with the right side missing. |
| Joins.FirstWithKeyFilter | src/time.py:99-100 | Dropping rows that lack the key does not change the first row with a given key. |
| Joins.TwoMatchesGrowJoin | src/timezone_cinversion.py:96 | A left row with two distinct matches makes the join longer than its left side. |
| ZoneResolution.UserWithId | src/time.py:99-103 | A referral id resolves to a user row with that id, or to nothing when no row carries it. |
| ZoneResolution.MemberMap | src/time.py:99-100 | The user map has only user rows that carry an id, and no two of its rows share an id. MemberMapLookup proves it keeps the first row of each id. |
| ZoneResolution.ResolveMembers | src/time.py:99-112 | At least one row per referral. Every row comes from a referral; each attached user is a user row with that side's id; the final zone is the referrer's zone, falling back to the referee's. ResolveMembersIsLookup proves exactly one row per referral, in order. |
| ZoneResolution.MemberMapLookup | src/time.py:99-100 | Looking an id up in the deduplicated user map finds the first user row with that id. |
| ZoneResolution.MemberJoinIsLookup | src/time.py:99-108 | Joining on an id against the user map yields at most one match, the first user row with that id. |
| ZoneResolution.ResolveMembersIsLookup | src/time.py:99-112 | Both joins preserve the referral count and order. Each row carries the first user row for the referrer and for the referee, and the referrer's zone falling back to the referee's. |
| ZoneResolution.ZonePairs | src/timezone_cinversion.py:94 | The (id, zone) pairs are exactly those of user rows with both values present. |
| ZoneResolution.ZoneMap | src/timezone_cinversion.py:94 | The pair map holds only complete (id, zone) pairs of the user table, each once. ZoneMapKeepsPairs proves no complete pair is lost. |
| ZoneResolution.ResolveZones | src/timezone_cinversion.py:94-103 | At least one row per referral. Every row comes from a referral; each attached zone is the zone of a user row with that side's id; the final zone is the referrer's zone, falling back to the referee's. ResolveZonesIsLookup proves exactly one row per referral when zones are consistent. |
| ZoneResolution.ZoneOfUser | src/timezone_cinversion.py:94-99 | A user's zone is the zone of a user row with that id. It is missing only when no such row has a zone. |
| ZoneResolution.ZoneMapUniqueUsers | src/timezone_cinversion.py:94 | When every user id carries at most one zone, the pair map has distinct user ids. |
| ZoneResolution.SameUserSamePair | src/timezone_cinversion.py:94 | When every user id carries at most one zone, two (id, zone) pairs with the same id are the same pair. |
| ZoneResolution.ZoneMapKeepsPairs | src/timezone_cinversion.py:94 | Every complete (id, zone) pair of the user table survives deduplication. |
| ZoneResolution.ZoneJoinIsLookup | src/timezone_cinversion.py:94-99 | With consistent zones, a join on an id yields at most one match, carrying that user's zone. |
| ZoneResolution.ResolveZonesIsLookup | src/timezone_cinversion.py:94-103 | With consistent zones, both joins preserve the referral count and order. Each row carries both users' zones and the referrer's zone falling back to the referee's. |
| ZoneResolution.InconsistentZonesDuplicateRows | src/timezone_cinversion.py:94-96 | A referrer whose id carries two different zones produces more output rows than there are referrals. |
| ZoneResolution.DropUnconverted | src/timezone_cinversion.py:116 | Survivors all have a local time. Every copy of a row with a local time survives, and no row without one. Survivors keep their order. |
| ZoneResolution.SurvivesIff | src/timezone_cinversion.py:103-116 | With consistent zones, referral i survives exactly when it has a referral time and its final zone exists and is not "nan". |
| ZoneResolution.ConvertReferrals | src/timezone_cinversion.py:94-116 | Every surviving row comes from a referral and carries zones of its own users. It has a referral time and a final zone other than "nan", and its local time is that time converted to that zone. |
| ReferralFile.FirstLargeIndex | src/time.py:24-32 | Finds the first listed candidate name above 2000 bytes. There is none exactly when no entry qualifies. |
| ReferralFile.FirstLargeReferral | src/time.py:19-33 | A missing directory or no qualifying entry gives nothing. Otherwise the result is the name of the first qualifying entry. |
| ReferralFile.ReferralPath | src/time.py:59-63 | Without a qualifying file the path falls back to "user_referral.csv". Otherwise the path is the name of the file the search chose, which is a referral candidate. |
| ReferralFile.Insert | src/timezone_cinversion.py:28 | Insertion adds exactly one element and keeps every other element: the result is the input plus the new entry, as a multiset. |
| ReferralFile.InsertKeepsSorted | src/timezone_cinversion.py:28 | Inserting into a list sorted by decreasing size keeps it sorted. |
| ReferralFile.SortBySizeDesc | src/timezone_cinversion.py:28 | The sorted list is ordered by decreasing size and is a permutation of the input. |
| ReferralFile.EarliestLargestCons | src/timezone_cinversion.py:28 | Putting an entry in front moves the earliest largest position by one, unless the new entry is at least as large. |
| ReferralFile.SortHead | src/timezone_cinversion.py:28-30 | The head of the sorted list is the earliest listed of the largest entries. |
| ReferralFile.LargestReferral | src/timezone_cinversion.py:16-32 | There is no result exactly when no name passes the filter, whatever the sizes. Otherwise the result is the earliest largest candidate. |
| ReferralFile.LargestCoversFirstLarge | src/time.py:19-33 | Whenever the first-large rule finds a file, the largest-file rule finds a candidate above 2000 bytes. |
| Rules.FirstMatch | src/fraud_check.py:119-137 | Finds the first rule in table order that fires. When it finds none, no rule fires. |
| Rules.Evaluate | src/fraud_check.py:119-137 | The table accepts a row exactly when some rule decides it (fires, with no earlier rule firing) and that rule accepts. When no rule fires the row is rejected. |
| Rules.CheckLogic | src/fraud_check.py:119-137 | A row is valid exactly when all ten checks pass, or when it is pending/failed without a reward. |
| Rules.RewardWithoutSuccessRejected | src/fraud_check.py:130 | A reward without a successful status is always invalid. |
| Rules.DecidingRuleUnique | src/fraud_check.py:119-137 | The first firing rule is unique and is the one the table evaluation picks. |
| Rules.AcceptingRulesFirst | src/fraud_check.py:119-137 | Behind the two accepting rules, any list of rejecting rules gives the same verdict as the closed form. |
| Rules.RejectingRulesInterchangeable | src/fraud_check.py:129-137 | Removing or reordering the rejecting rules never changes the verdict. |
| Enrichment.HasReward | src/fraud_check.py:74-82 | A reward counts exactly when the value is present and positive. A missing value counts as 0. |
| Enrichment.AtOrAfter | src/fraud_check.py:90 | Comparing with a missing timestamp is false. |
| Enrichment.SameMonth | src/fraud_check.py:93-97 | False unless both timestamps are present. |
| Enrichment.IsSuccess | src/fraud_check.py:83 | A missing status (string form "nan") is never a success. |
| Enrichment.IsPendingOrFailed | src/fraud_check.py:84-85 | A missing status (string form "nan") is neither pending nor failed. |
| Enrichment.StatusFlagsIgnoreCase | src/fraud_check.py:83-85 | Upper- or lower-casing the status never changes either status flag. |
| Enrichment.MissingStatusInvalid | src/fraud_check.py:83-85 | A row with a missing status is never valid, whatever its other cells. |
| Enrichment.HasTransId | src/fraud_check.py:87 | The flag holds exactly when the string form of the transaction id is not "nan". The not-null half of the test is implied by the other half. |
| Enrichment.UpperEquals | src/fraud_check.py:88-89 | Comparing the upper-cased string form with an upper-case word holds exactly when the two agree ignoring case. |
| Enrichment.TransactionFlagsIgnoreCase | src/fraud_check.py:88-89 | The case of the transaction status and type does not matter. A missing cell is neither "PAID" nor "NEW". |
| Enrichment.IsMemberActive | src/fraud_check.py:100-104 | A member is active exactly when the expiry is present and its day is today or later. |
| Enrichment.IsAccountActive | src/fraud_check.py:106-110 | An absent `referrer_deleted` column means active. A missing cell in a present column means inactive. |
| Enrichment.IsGranted | src/fraud_check.py:112-116 | Granted only when the column is present and the cell is not missing. |
| Enrichment.DeriveFlags | src/fraud_check.py:82-116 | Each flag against the row's cells: reward present and positive; status flags only with a status; transaction id not "nan"; status "paid" and type "new" in any case; timestamp flags only when both times exist, with the transaction no earlier; expiry today or later; an absent deletion column active; granted only with a present cell. |
| Enrichment.IsValid | src/fraud_check.py:140 | A row without a status is never valid. A valid row without a reward is pending or failed. A valid rewarded row has a successful status and a paid, new transaction no earlier than the referral and in the same month, for an active member with a live account and a granted reward. |
| Enrichment.AbsentColumnDefaults | src/fraud_check.py:100-116 | Without the expiry column no member is active. Without the deletion column every account is active. Without the granted column no reward is granted. |
| Enrichment.CellTextIgnoresCase | src/fraud_check.py:106-116 | A text deletion or granted cell is read without regard to case. |
| Enrichment.EmptyRowFlags | src/fraud_check.py:81-116 | A row with every cell missing and every optional column absent raises only `is_account_active`, and is invalid. |
| Enrichment.SameMonthIff | src/fraud_check.py:96-97 | The month (y, m) of the first timestamp is a real month, and the second timestamp shares it exactly when it lies in the half-open range of seconds from the start of that month to the start of the next. |
| Enrichment.SameMonthIsClose | src/fraud_check.py:96-97 | Timestamps in the same month are less than 31 days apart. |
| Enrichment.StartOfDay | src/fraud_check.py:100 | "now" normalised is midnight: a multiple of a day, at most the clock, and less than a day before it. |
| Enrichment.ExpiryEarlierTodayIsActive | src/fraud_check.py:100-102 | A membership expiring earlier on the current day is still active. |
| Enrichment.DeletedColumnDefaults | src/fraud_check.py:106-110 | An absent deletion column means active, a missing cell means inactive, and `False` means active. |
| Enrichment.StatusPatternsOverlap | src/fraud_check.py:83-85 | "Tidak Berhasil" is both successful and pending/failed. Without a reward it is valid. |
| Enrichment.PerfectScenarioValid | src/fraud_check.py:121-125 | A paid, new, granted and rewarded referral of an active member, with the transaction later on the same day, passes all checks and is valid. |
| Enrichment.PendingScenarioValid | src/fraud_check.py:127-128 | A "Menunggu" referral with reward 0 is valid. |
| Enrichment.FailedRewardScenarioInvalid | src/fraud_check.py:130 | A rewarded referral with status "Gagal", which matches no success pattern, is invalid. |
| Report.CategoryAt | src/fraud_check.py:36-42 | A stored category is kept. Without the category column, a row with a source column gets the classifier's label for its own source (one of the three categories), and a table without a source column gets "Unknown". |
| Report.RowFor | src/fraud_check.py:151-174 | The verdict written to a report row accepts it exactly when all ten checks pass or the row is pending/failed without a reward. The id, referral-id and source fallbacks are the definition of the row itself. |
| Report.BuildReport | src/fraud_check.py:151-174 | The report has exactly one row per table row, in table order, and row i is the report row of table row i. |
| Report.ReportIdsWithoutIdColumn | src/fraud_check.py:151-154 | Without an `id` column the report ids are 101, 102, ..., 100+n, strictly increasing. |

## Left out

- File and directory I/O. Reading and writing CSV files, `os.listdir`,
  `os.path.getsize` and `os.path.exists` are not modelled; the listing is
  passed in as `(name, size)` entries. File selection returns the entry name,
  not the joined path.
- The IANA database and `pytz`. Zones are an uninterpreted offset function,
  so daylight-saving offsets are whatever that function returns.
- `pd.to_datetime` parsing. Timestamps arrive as integers;
  `errors='coerce'` failures arrive as missing.
- `pd.Timestamp.now()`. The current time is the parameter `clock`.
- Case mapping of non-ASCII letters. `Lower` and `Upper` map A-Z and a-z
  only.
- Title-casing of text columns (src/time.py:127-136,
  src/timezone_cinversion.py:108-111). It depends on Unicode casing rules.
- The numeric-to-string coercion that produces ids such as "123.0". Ids
  enter the model as text.
- Merges outside the timezone attachment: transactions
  (src/time.py:115-116), statuses and rewards (src/fraud_check.py:44-71).
  Their row-count behaviour is the generic `Joins.LeftJoinRowCount`.
- Early returns and `KeyError`s on absent required columns, such as the
  `referee_id` check at src/timezone_cinversion.py:84-86. Modelled tables
  always have the required columns.
- The `os.listdir` failure on a missing directory in
  src/timezone_cinversion.py:19. `LargestReferral` takes a listing that
  exists.
- The report's `referrer_id` and `referee_id` columns
  (src/fraud_check.py:165,170), its contact columns (names, phone numbers,
  home club) and its timestamps. These are plain column copies, some with an
  "Unknown" default, and carry no logic.
- `status_name` filled with "Unknown" when its column is absent
  (src/fraud_check.py:54-55). The model takes the cell directly, and
  "Unknown" matches neither status pattern.
- ZoneResolution.InconsistentZonesDuplicateRows: states the row growth only
  for an inconsistent referrer. The same growth occurs through an
  inconsistent referee, but that is not proved.
- ReferralFile.SortBySizeDesc: states the order by size and the permutation, but not that equal-size entries keep their input order (Python's sort is stable). Only the consequence the file pick relies on is proved, in `ReferralFile.SortHead`.

## Notes on the code as written

- `clean_id` is not idempotent: a second call can change its result.
  - "1.0.0" becomes "1.0" and then "1".
  - A blank text becomes "" and then missing.
  - "1 .0" becomes "1 " and then "1".

  The exact condition is `Identifiers.CleanIdIdempotentIff`: the first
  result must be missing or canonical, and canonical includes "no trailing
  whitespace".
- The success and pending/failed status patterns overlap on texts such
  as "Tidak Berhasil" (`Enrichment.StatusPatternsOverlap`). Such a row
  without a reward is accepted by the pending/failed rule.
- The `tz_map` of src/timezone_cinversion.py deduplicates whole
  (id, zone) pairs. A user with two zones therefore duplicates referral
  rows (`ZoneResolution.InconsistentZonesDuplicateRows`). The variant in
  src/time.py deduplicates on the id and always preserves the row count
  (`ZoneResolution.ResolveMembersIsLookup`).
- The final `dropna` on the local referral time is commented out in
  src/time.py:143 and active in src/timezone_cinversion.py:116. Only the
  latter drops rows.

=== FILE: calendar.dfy ===
/** The proleptic Gregorian calendar over day numbers counted from
    1970-01-01 (day 0), as pandas uses it to read the year and month of a
    naive timestamp (`dt.to_period('M')`). */
module Calendar {

  predicate IsLeapYear(y: int) {
    y % 4 == 0 && (y % 100 != 0 || y % 400 == 0)
  }

  function DaysInYear(y: int): int {
    if IsLeapYear(y) then 366 else 365
  }

  function DaysInMonth(y: int, m: int): int
    requires 1 <= m <= 12
  {
    if m == 2 then (if IsLeapYear(y) then 29 else 28)
    else if m == 4 || m == 6 || m == 9 || m == 11 then 30
    else 31
  }

  /** Days of year `y` before the first of month `m`; `m == 13` gives the
      length of the whole year. */
  function DaysBeforeMonth(y: int, m: int): int
    requires 1 <= m <= 13
  {
    var leapDay := if IsLeapYear(y) && m > 2 then 1 else 0;
    [0, 31, 59, 90, 120, 151, 181, 212, 243, 273, 304, 334, 365][m - 1] + leapDay
  }

  lemma DaysBeforeMonthStep(y: int, m: int)
    requires 1 <= m <= 12
    ensures DaysBeforeMonth(y, m + 1) == DaysBeforeMonth(y, m) + DaysInMonth(y, m)
    ensures DaysBeforeMonth(y, 1) == 0 && DaysBeforeMonth(y, 13) == DaysInYear(y)
  {
  }

  /** Day number of January 1st of year `y`. */
  function DaysBeforeYear(y: int): int
    decreases if y >= 1970 then y - 1970 else 1970 - y
  {
    if y == 1970 then 0
    else if y > 1970 then DaysBeforeYear(y - 1) + DaysInYear(y - 1)
    else DaysBeforeYear(y + 1) - DaysInYear(y)
  }

  lemma DaysBeforeYearStep(y: int)
    ensures DaysBeforeYear(y + 1) == DaysBeforeYear(y) + DaysInYear(y)
  {
  }

  /** Later years start strictly later. */
  lemma {:induction false} DaysBeforeYearMonotone(a: int, b: int)
    requires a < b
    ensures DaysBeforeYear(a + 1) <= DaysBeforeYear(b)
    decreases b - a
  {
    if a + 1 < b {
      DaysBeforeYearMonotone(a, b - 1);
      DaysBeforeYearStep(b - 1);
    }
  }

  /** The year that contains day `n`, searched upwards from `y`. */
  function YearFrom(n: int, y: int): (r: int)
    requires DaysBeforeYear(y) <= n
    ensures DaysBeforeYear(r) <= n < DaysBeforeYear(r + 1)
    decreases n - DaysBeforeYear(y)
  {
    DaysBeforeYearStep(y);
    if n < DaysBeforeYear(y + 1) then y else YearFrom(n, y + 1)
  }

  /** The year that contains day `n`, searched downwards from `y`. */
  function YearUntil(n: int, y: int): (r: int)
    requires n < DaysBeforeYear(y + 1)
    ensures DaysBeforeYear(r) <= n < DaysBeforeYear(r + 1)
    decreases DaysBeforeYear(y + 1) - n
  {
    DaysBeforeYearStep(y);
    DaysBeforeYearStep(y - 1);
    if DaysBeforeYear(y) <= n then y else YearUntil(n, y - 1)
  }

  /** The year that contains day `n`. */
  function YearOfDay(n: int): (r: int)
    ensures DaysBeforeYear(r) <= n < DaysBeforeYear(r + 1)
  {
    if n >= 0 then YearFrom(n, 1970) else YearUntil(n, 1969)
  }

  /** Only one year contains a given day. */
  lemma YearUnique(a: int, b: int, n: int)
    requires DaysBeforeYear(a) <= n < DaysBeforeYear(a + 1)
    requires DaysBeforeYear(b) <= n < DaysBeforeYear(b + 1)
    ensures a == b
  {
    if a < b {
      DaysBeforeYearMonotone(a, b);
    } else if b < a {
      DaysBeforeYearMonotone(b, a);
    }
  }

  /** The month of year `y` that contains day-of-year `doy`, searched from `m`. */
  function MonthFrom(doy: int, y: int, m: int): (r: int)
    requires 1 <= m <= 12
    requires DaysBeforeMonth(y, m) <= doy < DaysInYear(y)
    ensures m <= r <= 12
    ensures DaysBeforeMonth(y, r) <= doy < DaysBeforeMonth(y, r + 1)
    decreases 12 - m
  {
    if doy < DaysBeforeMonth(y, m + 1) then m else MonthFrom(doy, y, m + 1)
  }

  datatype Date = Date(year: int, month: int, day: int)

  predicate ValidDate(d: Date) {
    1 <= d.month <= 12 && 1 <= d.day <= DaysInMonth(d.year, d.month)
  }

  /** Day number of a calendar date. */
  function DayOfDate(d: Date): int
    requires ValidDate(d)
  {
    DaysBeforeYear(d.year) + DaysBeforeMonth(d.year, d.month) + d.day - 1
  }

  /** Calendar date of a day number; every day number has a valid date, and
      converting it back gives the same day number. */
  function DateOfDay(n: int): (r: Date)
    ensures ValidDate(r)
    ensures DayOfDate(r) == n
  {
    var y := YearOfDay(n);
    var doy := n - DaysBeforeYear(y);
    var m := MonthFrom(doy, y, 1);
    DaysBeforeMonthStep(y, m);
    Date(y, m, doy - DaysBeforeMonth(y, m) + 1)
  }

  /** The other half of the round trip: a valid date survives conversion to
      a day number and back, so dates and day numbers are in one-to-one
      correspondence. */
  lemma DateRoundTrip(d: Date)
    requires ValidDate(d)
    ensures DateOfDay(DayOfDate(d)) == d
  {
    DateUnique(d, DateOfDay(DayOfDate(d)));
  }

  /** Distinct valid dates have distinct day numbers. */
  lemma DateUnique(d: Date, e: Date)
    requires ValidDate(d) && ValidDate(e) && DayOfDate(d) == DayOfDate(e)
    ensures d == e
  {
    var n := DayOfDate(d);
    DayWithinMonth(d);
    DayWithinMonth(e);
    YearUnique(e.year, d.year, n);
    MonthUnique(d.year, e.month, d.month, n - DaysBeforeYear(d.year));
  }

  /** The day number of a valid date lies in its year, and its day of the
      year lies in its month. */
  lemma DayWithinMonth(d: Date)
    requires ValidDate(d)
    ensures DaysBeforeYear(d.year) <= DayOfDate(d) < DaysBeforeYear(d.year + 1)
    ensures DaysBeforeMonth(d.year, d.month) <= DayOfDate(d) - DaysBeforeYear(d.year) < DaysBeforeMonth(d.year, d.month + 1)
  {
    DaysBeforeMonthStep(d.year, d.month);
    DaysBeforeYearStep(d.year);
  }

  /** Only one month of a year contains a given day of that year. */
  lemma MonthUnique(y: int, a: int, b: int, doy: int)
    requires 1 <= a <= 12 && 1 <= b <= 12
    requires DaysBeforeMonth(y, a) <= doy < DaysBeforeMonth(y, a + 1)
    requires DaysBeforeMonth(y, b) <= doy < DaysBeforeMonth(y, b + 1)
    ensures a == b
  {
  }

  /** Calendar date of a naive timestamp in seconds (floor division, as for
      timestamps before 1970 too). */
  function DateOf(t: int): Date {
    DateOfDay(t / 86400)
  }

  /** Splitting a timestamp into its day number and second of day. */
  lemma SplitTimestamp(n: int, c: int)
    requires 0 <= c < 86400
    ensures (n * 86400 + c) / 86400 == n
    ensures (n * 86400 + c) % 86400 == c
  {
  }

  /** A timestamp's date depends only on its day number. */
  lemma DateOfSplit(n: int, c: int)
    requires 0 <= c < 86400
    ensures DateOf(n * 86400 + c) == DateOfDay(n)
  {
    SplitTimestamp(n, c);
  }

  /** `(year, month)` of a naive timestamp, the value `to_period('M')`
      compares: a month of the year, and the one whose seconds contain `t`. */
  function MonthOf(t: int): (r: (int, int))
    ensures 1 <= r.1 <= 12
    ensures MonthStart(r.0, r.1) <= t < MonthStart(r.0, r.1) + DaysInMonth(r.0, r.1) * 86400
  {
    var d := DateOf(t);
    MonthOfDayIff(t / 86400, d.year, d.month);
    DayBounds(t, DayOfDate(Date(d.year, d.month, 1)), DaysInMonth(d.year, d.month));
    (d.year, d.month)
  }

  /** First second of month `m` of year `y`. */
  function MonthStart(y: int, m: int): int
    requires 1 <= m <= 12
  {
    DayOfDate(Date(y, m, 1)) * 86400
  }

  /** Day `n` lies in month `(y, m)` exactly when it falls among that
      month's days. */
  lemma MonthOfDayIff(n: int, y: int, m: int)
    requires 1 <= m <= 12
    ensures (DateOfDay(n).year == y && DateOfDay(n).month == m) <==>
      DayOfDate(Date(y, m, 1)) <= n < DayOfDate(Date(y, m, 1)) + DaysInMonth(y, m)
  {
    var first := DayOfDate(Date(y, m, 1));
    var r := DateOfDay(n);
    if r.year == y && r.month == m {
      assert DayOfDate(r) == first + r.day - 1;
    }
    if first <= n < first + DaysInMonth(y, m) {
      DateRoundTrip(Date(y, m, n - first + 1));
    }
  }

  /** A timestamp lies in month `(y, m)` exactly when it falls in the
      half-open interval of that month's seconds. */
  lemma MonthOfIff(t: int, y: int, m: int)
    requires 1 <= m <= 12
    ensures MonthOf(t) == (y, m) <==>
      MonthStart(y, m) <= t < MonthStart(y, m) + DaysInMonth(y, m) * 86400
  {
    var n := t / 86400;
    MonthOfDayIff(n, y, m);
    DayBounds(t, DayOfDate(Date(y, m, 1)), DaysInMonth(y, m));
  }

  /** Whole days `[a, a + k)` contain the day of `t` exactly when the seconds
      of those days contain `t`. */
  lemma DayBounds(t: int, a: int, k: int)
    ensures a <= t / 86400 < a + k <==> a * 86400 <= t < a * 86400 + k * 86400
  {
  }
}

=== FILE: enrichment.dfy ===
/** Derivation of the rule engine's flags from one enriched referral row
    (the "Prepare Logic Columns" step of the fraud check). Cells are given by
    value, `None` standing for NaN/NaT; columns that may be absent from the
    table altogether are wrapped once more, `None` standing for the absent
    column. */
module Enrichment {
  import opened Optional
  import opened Text
  import opened Calendar
  import opened Rules

  /** A cell of a loosely typed column (`referrer_deleted`,
      `is_reward_granted`): missing, a boolean, a number, or text. */
  datatype Cell = Missing | Bool(b: bool) | Num(x: real) | Str(s: string)

  /** One row of the enriched table, as far as the rule engine reads it. */
  datatype EnrichedRow = EnrichedRow(
    rewardValue: Option<real>,          // `reward_value`; `None` also when the column is absent
    statusName: Option<string>,         // `status_name`
    transactionId: Option<string>,      // `transaction_id` in its string form
    transactionStatus: Option<string>,  // `transaction_status`
    transactionType: Option<string>,    // `transaction_type`
    referralAtLocal: Option<int>,       // naive local seconds
    transactionAtLocal: Option<int>,    // naive local seconds
    referrerExpiry: Option<int>,        // `referrer_expiry`; `None` also when the column is absent
    referrerDeleted: Option<Cell>,      // `referrer_deleted`; `None` when the column is absent
    rewardGranted: Option<Cell>)        // `is_reward_granted`; `None` when the column is absent

  /** Python's `str()` of a text cell: a missing value prints as "nan". */
  function StrForm(v: Option<string>): string {
    v.GetOr("nan")
  }

  const SuccessPatterns: seq<string> := ["Berhasil", "Success"]
  const PendingOrFailedPatterns: seq<string> := ["Menunggu", "Tidak", "Fail", "Pending"]

  /** Case-insensitive search for any alternative of a regular expression
      made only of literal alternatives (`str.contains(.., case=False)`). */
  predicate MatchesAnyIgnoringCase(text: string, patterns: seq<string>) {
    exists j :: 0 <= j < |patterns| && Contains(Lower(text), Lower(patterns[j]))
  }

  /** `has_reward`: a missing reward is filled with 0 and so is no reward. */
  function HasReward(rewardValue: Option<real>): (r: bool)
    ensures r <==> rewardValue.Some? && rewardValue.value > 0.0
  {
    rewardValue.GetOr(0.0) > 0.0
  }

  /** A text shorter than every pattern matches none of them; "nan", the
      string form of a missing cell, is such a text. */
  lemma ShortTextMatchesNothing(text: string, patterns: seq<string>)
    requires forall j :: 0 <= j < |patterns| ==> |text| < |patterns[j]|
    ensures !MatchesAnyIgnoringCase(text, patterns)
  {
  }

  /** `is_success`: a missing status ("nan") is never a success. */
  function IsSuccess(status: Option<string>): (r: bool)
    ensures status.None? ==> !r
  {
    ShortTextMatchesNothing("nan", SuccessPatterns);
    MatchesAnyIgnoringCase(StrForm(status), SuccessPatterns)
  }

  /** `is_pending_or_failed`: a missing status ("nan") is neither pending
      nor failed. */
  function IsPendingOrFailed(status: Option<string>): (r: bool)
    ensures status.None? ==> !r
  {
    ShortTextMatchesNothing("nan", PendingOrFailedPatterns);
    MatchesAnyIgnoringCase(StrForm(status), PendingOrFailedPatterns)
  }

  /** `has_trans_id`: present, and not the text "nan". The `notna` half of
      the test adds nothing: the flag holds exactly when the string form of
      the cell is not "nan". */
  function HasTransId(transactionId: Option<string>): (r: bool)
    ensures r <==> StrForm(transactionId) != "nan"
  {
    transactionId.Some? && transactionId.value != "nan"
  }

  /** Upper-cased string form equal to `word`: for an upper-case `word`,
      the string form equals it up to case. */
  function UpperEquals(v: Option<string>, word: string): (r: bool)
    ensures Upper(word) == word ==> (r <==> Lower(StrForm(v)) == Lower(word))
  {
    LowerAbsorbsCase(StrForm(v));
    LowerAbsorbsCase(word);
    Upper(StrForm(v)) == word
  }

  /** `tx_after_ref`: comparing with a missing timestamp is false. */
  function AtOrAfter(later: Option<int>, earlier: Option<int>): (r: bool)
    ensures r ==> later.Some? && earlier.Some?
  {
    later.Some? && earlier.Some? && later.value >= earlier.value
  }

  /** `same_month`: false unless both timestamps are present; otherwise
      whether their calendar year and month agree. */
  function SameMonth(a: Option<int>, b: Option<int>): (r: bool)
    ensures r ==> a.Some? && b.Some?
  {
    a.Some? && b.Some? && MonthOf(a.value) == MonthOf(b.value)
  }

  /** `now.normalize()`: midnight at the start of the day of `clock`. */
  function StartOfDay(clock: int): (r: int)
    ensures r <= clock < r + 86400
    ensures r % 86400 == 0
  {
    (clock / 86400) * 86400
  }

  /** `is_member_active`: the expiry is today or later; a missing expiry,
      or an absent column, is not active. */
  function IsMemberActive(expiry: Option<int>, clock: int): (r: bool)
    ensures r <==> expiry.Some? && expiry.value / 86400 >= clock / 86400
  {
    expiry.Some? && expiry.value >= StartOfDay(clock)
  }

  /** `is_account_active`: `referrer_deleted == False`, or its string form is
      "false" in any case; an absent column counts as active, a missing
      cell does not. */
  function IsAccountActive(deleted: Option<Cell>): (r: bool)
    ensures deleted.None? ==> r
    ensures deleted == Some(Missing) ==> !r
  {
    match deleted
    case None => true
    case Some(Missing) => false
    case Some(Bool(b)) => !b
    case Some(Num(x)) => x == 0.0
    case Some(Str(s)) => Lower(s) == "false"
  }

  /** `is_granted`: `is_reward_granted == True`, or its string form is
      "true" in any case; an absent column or a missing cell is not granted. */
  function IsGranted(granted: Option<Cell>): (r: bool)
    ensures r ==> granted.Some? && granted.value != Missing
  {
    match granted
    case None => false
    case Some(Missing) => false
    case Some(Bool(b)) => b
    case Some(Num(x)) => x == 1.0
    case Some(Str(s)) => Lower(s) == "true"
  }

  /** All flags of one row; `clock` is the injected current time. Missing
      cells raise no flag except `is_account_active` for an absent column. */
  function DeriveFlags(row: EnrichedRow, clock: int): (r: Flags)
    ensures r.hasReward <==> row.rewardValue.Some? && row.rewardValue.value > 0.0
    ensures r.isSuccess || r.isPendingOrFailed ==> row.statusName.Some?
    ensures r.hasTransId <==> StrForm(row.transactionId) != "nan"
    ensures r.isTransPaid <==> Lower(StrForm(row.transactionStatus)) == "paid"
    ensures r.isTransNew <==> Lower(StrForm(row.transactionType)) == "new"
    ensures r.txAfterRef || r.sameMonth ==> row.transactionAtLocal.Some? && row.referralAtLocal.Some?
    ensures r.txAfterRef ==> row.transactionAtLocal.value >= row.referralAtLocal.value
    ensures r.isMemberActive <==> row.referrerExpiry.Some? && row.referrerExpiry.value / 86400 >= clock / 86400
    ensures row.referrerDeleted.None? ==> r.isAccountActive
    ensures r.isGranted ==> row.rewardGranted.Some? && row.rewardGranted.value != Missing
  {
    assert Upper("PAID") == "PAID" && Lower("PAID") == "paid";
    assert Upper("NEW") == "NEW" && Lower("NEW") == "new";
    Flags(
      hasReward := HasReward(row.rewardValue),
      isSuccess := IsSuccess(row.statusName),
      isPendingOrFailed := IsPendingOrFailed(row.statusName),
      hasTransId := HasTransId(row.transactionId),
      isTransPaid := UpperEquals(row.transactionStatus, "PAID"),
      isTransNew := UpperEquals(row.transactionType, "NEW"),
      txAfterRef := AtOrAfter(row.transactionAtLocal, row.referralAtLocal),
      sameMonth := SameMonth(row.transactionAtLocal, row.referralAtLocal),
      isMemberActive := IsMemberActive(row.referrerExpiry, clock),
      isAccountActive := IsAccountActive(row.referrerDeleted),
      isGranted := IsGranted(row.rewardGranted))
  }

  /** `is_business_logic_valid` of a row: a row without a status is never
      valid; a valid row without a reward is pending or failed; a valid row
      with a reward has a successful status and a paid, new transaction no
      earlier than the referral, in the same month, for an active member
      whose account is live and whose reward was granted. */
  function IsValid(row: EnrichedRow, clock: int): (r: bool)
    ensures row.statusName.None? ==> !r
    ensures r && !(row.rewardValue.Some? && row.rewardValue.value > 0.0) ==> IsPendingOrFailed(row.statusName)
    ensures r && row.rewardValue.Some? && row.rewardValue.value > 0.0 ==>
      && IsSuccess(row.statusName)
      && StrForm(row.transactionId) != "nan"
      && Lower(StrForm(row.transactionStatus)) == "paid"
      && Lower(StrForm(row.transactionType)) == "new"
      && row.transactionAtLocal.Some? && row.referralAtLocal.Some?
      && row.transactionAtLocal.value >= row.referralAtLocal.value
      && MonthOf(row.transactionAtLocal.value) == MonthOf(row.referralAtLocal.value)
      && row.referrerExpiry.Some? && row.referrerExpiry.value / 86400 >= clock / 86400
      && IsAccountActive(row.referrerDeleted)
      && row.rewardGranted.Some? && row.rewardGranted.value != Missing
  {
    CheckLogic(DeriveFlags(row, clock))
  }

  /** Absent columns: no `referrer_expiry` column means not active, no
      `referrer_deleted` column means active, and no `is_reward_granted`
      column means not granted. */
  lemma AbsentColumnDefaults(clock: int)
    ensures !IsMemberActive(None, clock)
    ensures IsAccountActive(None)
    ensures !IsGranted(None)
  {
  }

  /** The status flags ignore case (`case=False`): upper- or lower-casing
      the status never changes them. */
  lemma StatusFlagsIgnoreCase(s: string)
    ensures IsSuccess(Some(Upper(s))) == IsSuccess(Some(s))
    ensures IsSuccess(Some(Lower(s))) == IsSuccess(Some(s))
    ensures IsPendingOrFailed(Some(Upper(s))) == IsPendingOrFailed(Some(s))
    ensures IsPendingOrFailed(Some(Lower(s))) == IsPendingOrFailed(Some(s))
  {
    LowerAbsorbsCase(s);
  }

  /** The transaction status and type are compared after upper-casing, so
      their case does not matter; a missing cell ("nan") is neither "PAID"
      nor "NEW". */
  lemma TransactionFlagsIgnoreCase(v: string, word: string)
    ensures UpperEquals(Some(Lower(v)), word) == UpperEquals(Some(v), word)
    ensures !UpperEquals(None, "PAID") && !UpperEquals(None, "NEW")
  {
    LowerAbsorbsCase(v);
    assert Upper("nan") == "NAN";
  }

  /** A text `referrer_deleted` or `is_reward_granted` cell is read
      without regard to case. */
  lemma CellTextIgnoresCase(s: string)
    ensures IsAccountActive(Some(Str(Upper(s)))) == IsAccountActive(Some(Str(s)))
    ensures IsGranted(Some(Str(Upper(s)))) == IsGranted(Some(Str(s)))
  {
    LowerAbsorbsCase(s);
  }

  /** A row with a missing status is never valid: neither accepting rule
      can fire without a success or a pending/failed status. */
  lemma MissingStatusInvalid(row: EnrichedRow, clock: int)
    requires row.statusName.None?
    ensures !IsValid(row, clock)
  {
  }

  /** A row with every cell missing and every optional column absent
      raises no flag but `is_account_active`, and is invalid. */
  lemma EmptyRowFlags(clock: int)
    ensures
      var row := EnrichedRow(None, None, None, None, None, None, None, None, None, None);
      && DeriveFlags(row, clock) == Flags(
           hasReward := false, isSuccess := false, isPendingOrFailed := false,
           hasTransId := false, isTransPaid := false, isTransNew := false,
           txAfterRef := false, sameMonth := false, isMemberActive := false,
           isAccountActive := true, isGranted := false)
      && !IsValid(row, clock)
  {
    TransactionFlagsIgnoreCase("", "");
  }

  /** Two present timestamps are in the same month exactly when the second
      falls within the calendar month of the first. */
  lemma SameMonthIff(a: int, b: int)
    ensures
      var (y, m) := MonthOf(a);
      && 1 <= m <= 12
      && (SameMonth(Some(a), Some(b)) <==>
          MonthStart(y, m) <= b < MonthStart(y, m) + DaysInMonth(y, m) * 86400)
  {
    var (y, m) := MonthOf(a);
    MonthOfIff(a, y, m);
    MonthOfIff(b, y, m);
  }

  /** Timestamps in the same month are less than 31 days apart. */
  lemma SameMonthIsClose(a: int, b: int)
    requires SameMonth(Some(a), Some(b))
    ensures -31 * 86400 < a - b < 31 * 86400
  {
    var (y, m) := MonthOf(a);
    MonthOfIff(a, y, m);
    MonthOfIff(b, y, m);
  }

  /** The membership check compares with midnight: an expiry earlier on the
      current day still counts as active. */
  lemma ExpiryEarlierTodayIsActive(expiry: int, clock: int)
    requires expiry / 86400 == clock / 86400
    ensures IsMemberActive(Some(expiry), clock)
  {
  }

  /** An absent `referrer_deleted` column means active, but a missing cell
      in a present column means inactive. */
  lemma DeletedColumnDefaults()
    ensures IsAccountActive(None)
    ensures !IsAccountActive(Some(Missing))
    ensures IsAccountActive(Some(Bool(false))) && !IsAccountActive(Some(Bool(true)))
  {
  }

  /** "Tidak Berhasil" ("not successful") matches both status patterns; with
      no reward the row is accepted by the pending/failed rule, which is tried
      before the rule rejecting a success without a reward. */
  lemma StatusPatternsOverlap(row: EnrichedRow, clock: int)
    requires row.statusName == Some("Tidak Berhasil")
    requires !HasReward(row.rewardValue)
    ensures DeriveFlags(row, clock).isSuccess
    ensures DeriveFlags(row, clock).isPendingOrFailed
    ensures IsValid(row, clock)
  {
    var s := "tidak berhasil";
    assert Lower("Tidak Berhasil") == s;
    assert IsSuccess(row.statusName) by {
      assert Lower(SuccessPatterns[0]) == "berhasil";
      assert OccursAt(s, "berhasil", 6);
    }
    assert IsPendingOrFailed(row.statusName) by {
      assert Lower(PendingOrFailedPatterns[1]) == "tidak";
      assert OccursAt(s, "tidak", 0);
    }
  }

  /** A rewarded referral with a successful status ("Berhasil"), a paid new
      transaction later on the same day as the referral, an active member
      and account, and a granted reward passes every check and is valid. */
  lemma PerfectScenarioValid(row: EnrichedRow, clock: int)
    requires row.rewardValue == Some(50.0)
    requires row.statusName == Some("Berhasil")
    requires row.transactionId.Some? && row.transactionId.value != "nan"
    requires row.transactionStatus == Some("PAID") && row.transactionType == Some("NEW")
    requires row.referralAtLocal.Some? && row.transactionAtLocal.Some?
    requires row.referralAtLocal.value <= row.transactionAtLocal.value
    requires row.referralAtLocal.value / 86400 == row.transactionAtLocal.value / 86400
    requires row.referrerExpiry.Some? && row.referrerExpiry.value >= clock
    requires row.referrerDeleted == Some(Bool(false))
    requires row.rewardGranted == Some(Bool(true))
    ensures AllChecksPass(DeriveFlags(row, clock))
    ensures IsValid(row, clock)
  {
    var f := DeriveFlags(row, clock);
    assert f.isSuccess by {
      assert Lower("Berhasil") == "berhasil";
      assert OccursAt("berhasil", Lower(SuccessPatterns[0]), 0);
    }
    assert f.isTransPaid by { assert Upper("PAID") == "PAID"; }
    assert f.isTransNew by { assert Upper("NEW") == "NEW"; }
    assert f.isMemberActive by { assert StartOfDay(clock) <= clock; }
    assert f.sameMonth by { assert DateOf(row.referralAtLocal.value) == DateOf(row.transactionAtLocal.value); }
  }

  /** A pending referral ("Menunggu") without a reward is valid. */
  lemma PendingScenarioValid(row: EnrichedRow, clock: int)
    requires row.rewardValue == Some(0.0)
    requires row.statusName == Some("Menunggu")
    ensures IsValid(row, clock)
  {
    assert Lower("Menunggu") == "menunggu";
    assert OccursAt("menunggu", Lower(PendingOrFailedPatterns[0]), 0);
  }

  /** A rewarded referral whose status is "Gagal" (failed, in words neither
      pattern lists) is invalid: a reward without a success. */
  lemma FailedRewardScenarioInvalid(row: EnrichedRow, clock: int)
    requires row.rewardValue == Some(50.0)
    requires row.statusName == Some("Gagal")
    ensures !DeriveFlags(row, clock).isSuccess
    ensures !IsValid(row, clock)
  {
    assert Lower("Gagal") == "gagal";
    assert Lower(SuccessPatterns[0]) == "berhasil" && Lower(SuccessPatterns[1]) == "success";
  }
}

=== FILE: identifiers.dfy ===
/** The identifier normaliser (`clean_id`), applied to referrer, referee,
    user and transaction ids before any join. A raw cell is given by its
    Python string form, `None` standing for a missing cell. */
module Identifiers {
  import opened Optional
  import opened Text

  /** String forms that `clean_id` maps to a missing id. The test is made on
      the raw string, before any whitespace is stripped. */
  predicate IsMissingText(s: string) {
    Lower(s) in {"nan", "null", ""}
  }

  /** `clean_id`: missing stays missing, a missing-looking string becomes
      missing, anything else is stripped of surrounding whitespace and of at
      most one trailing ".0". */
  function CleanId(val: Option<string>): (r: Option<string>)
    ensures r.None? <==> val.None? || IsMissingText(val.value)
  {
    match val
    case None => None
    case Some(s) =>
      if IsMissingText(s) then None
      else
        var t := Strip(s);
        if EndsWith(t, ".0") then Some(t[..|t| - 2]) else Some(t)
  }

  /** A present result is the stripped input with at most one trailing ".0"
      removed: a prefix of it, exactly two characters shorter when the
      stripped input ends in ".0" and identical otherwise. */
  lemma CleanIdShape(val: Option<string>)
    requires CleanId(val).Some?
    ensures
      var t := Strip(val.value);
      var r := CleanId(val).value;
      && StartsWith(t, r)
      && (EndsWith(t, ".0") ==> |r| == |t| - 2)
      && (!EndsWith(t, ".0") ==> r == t)
  {
  }

  /** An id that `clean_id` leaves exactly as it is. */
  predicate IsCanonicalId(t: string) {
    && !IsMissingText(t)
    && !EndsWith(t, ".0")
    && t != []
    && !IsSpace(t[0]) && !IsSpace(t[|t| - 1])
  }

  /** `clean_id` fixes a present id exactly when that id is canonical. */
  lemma CleanIdFixpoint(t: string)
    ensures CleanId(Some(t)) == Some(t) <==> IsCanonicalId(t)
  {
    if CleanId(Some(t)) == Some(t) {
      FixpointIsCanonical(t);
    }
    if IsCanonicalId(t) {
      StripFixpoint(t);
    }
  }

  lemma FixpointIsCanonical(t: string)
    requires CleanId(Some(t)) == Some(t)
    ensures IsCanonicalId(t)
  {
    assert Lower(t) != "";
    StripFixpoint(t);
    assert Strip(t) == t;
  }

  /** Whatever `clean_id` returns starts with a non-blank character, so a
      second application can only change it by stripping trailing blanks,
      removing another ".0", or recognising it as missing. */
  lemma CleanIdOutputHead(x: Option<string>)
    requires CleanId(x).Some? && CleanId(x).value != []
    ensures !IsSpace(CleanId(x).value[0])
  {
  }

  /** `clean_id` is idempotent on `x` exactly when its first result is missing
      or canonical: a second pass changes a present result precisely when it
      is blank or "nan"/"null" in some case, still ends in ".0", or ends in
      whitespace that sat before a removed ".0". */
  lemma CleanIdIdempotentIff(x: Option<string>)
    ensures CleanId(CleanId(x)) == CleanId(x) <==>
      CleanId(x).None? || IsCanonicalId(CleanId(x).value)
  {
    if CleanId(x).Some? {
      CleanIdFixpoint(CleanId(x).value);
    }
  }

  /** On a present id without surrounding whitespace, `clean_id` only
      removes a trailing ".0". */
  lemma CleanIdOfTrimmed(t: string)
    requires t != [] && !IsSpace(t[0]) && !IsSpace(t[|t| - 1])
    requires !IsMissingText(t)
    ensures CleanId(Some(t)) == Some(if EndsWith(t, ".0") then t[..|t| - 2] else t)
  {
    StripFixpoint(t);
  }

  /** An id that does not start with whitespace loses exactly one appended
      ".0". */
  lemma CleanIdDropsOneSuffix(u: string)
    requires u != [] && !IsSpace(u[0])
    ensures CleanId(Some(u + ".0")) == Some(u)
  {
    var s := u + ".0";
    assert s[0] == u[0] && s[|s| - 1] == '0';
    assert !IsMissingText(s) by {
      assert Lower(s)[|s| - 1] == '0';
    }
    CleanIdOfTrimmed(s);
    assert EndsWith(s, ".0") && s[..|s| - 2] == u;
  }

  /** A non-empty run of decimal digits is canonical, so `clean_id` keeps it. */
  lemma CleanIdKeepsDigits(t: string)
    requires t != [] && forall i :: 0 <= i < |t| ==> '0' <= t[i] <= '9'
    ensures IsCanonicalId(t)
    ensures CleanId(Some(t)) == Some(t)
  {
    assert Lower(t)[0] == t[0];
    assert |t| >= 2 ==> t[|t| - 2..][0] == t[|t| - 2];
    CleanIdFixpoint(t);
  }

  /** A numeric-looking id loses its float suffix; an integral one is kept. */
  lemma CleanIdFloatSuffixExamples()
    ensures CleanId(Some("123.0")) == Some("123")
    ensures CleanId(Some("123")) == Some("123")
  {
    CleanIdDropsOneSuffix("123");
    assert "123" + ".0" == "123.0";
    CleanIdKeepsDigits("123");
  }

  /** Missing-looking spellings become missing in any letter case. */
  lemma CleanIdMissingExamples()
    ensures CleanId(Some("")) == None
    ensures CleanId(Some("NaN")) == None
    ensures CleanId(Some("NULL")) == None
  {
    assert Lower("") == "";
    assert Lower("NaN") == "nan";
    assert Lower("NULL") == "null";
  }

  /** Not idempotent: a doubled float suffix loses one ".0" per application
      ("1.0.0" becomes "1.0", then "1"). */
  lemma {:induction false} CleanIdRepeatedSuffix(t: string)
    requires t != [] && !IsSpace(t[0])
    ensures CleanId(Some(t + ".0.0")) == Some(t + ".0")
    ensures CleanId(Some(t + ".0")) == Some(t)
  {
    CleanIdDropsOneSuffix(t);
    CleanIdDropsOneSuffix(t + ".0");
    assert t + ".0" + ".0" == t + ".0.0";
  }

  /** Not idempotent: a blank id passes the missing test, which looks at the
      unstripped text, becomes "", and only a second application makes it
      missing. */
  lemma CleanIdBlank(w: string)
    requires w != [] && AllSpace(w)
    ensures CleanId(Some(w)) == Some("")
    ensures CleanId(Some("")) == None
  {
    assert Lower("") == "";
    assert Lower(w)[0] == w[0] && IsSpace(w[0]);
    assert w == w + "" + "";
    StripPadded(w, "", "");
  }

  /** Not idempotent: "nan" padded with whitespace survives the first
      application and is recognised as missing only by the second. */
  lemma CleanIdPaddedNan(a: string)
    requires a != [] && AllSpace(a)
    ensures CleanId(Some(a + "nan")) == Some("nan")
    ensures CleanId(Some("nan")) == None
  {
    assert Lower("nan") == "nan";
    assert Lower(a + "nan")[0] == a[0] && IsSpace(a[0]);
    assert a + "nan" == a + "nan" + "";
    StripPadded(a, "nan", "");
  }

  /** Not idempotent: whitespace in front of a removed ".0" is stripped only
      by a second application ("7 .0" becomes "7 ", then "7"), so "non-empty,
      not missing-looking and not ending in '.0'" does not make a result
      stable. */
  lemma {:induction false} CleanIdSpaceBeforeSuffix(t: string, w: string)
    requires IsCanonicalId(t)
    requires w != [] && AllSpace(w)
    ensures CleanId(Some(t + w + ".0")) == Some(t + w)
    ensures CleanId(Some(t + w)) == Some(t)
  {
    var s1 := t + w;
    CleanIdDropsOneSuffix(s1);
    assert !IsMissingText(s1) by {
      assert Lower(s1)[|s1| - 1] == s1[|s1| - 1] && IsSpace(s1[|s1| - 1]);
    }
    assert Strip(s1) == t by {
      assert s1 == "" + t + w;
      StripPadded("", t, w);
    }
  }
}

=== FILE: joins.dfy ===
/** The table operations the pipeline uses, on tables as sequences of rows:
    filtering (`dropna`), first-occurrence deduplication
    (`drop_duplicates`) and the left join (`merge(how='left')`). */
module Joins {
  import opened Optional

  /** Rows of `xs` satisfying `p`, in their original order. */
  function Filter<T>(xs: seq<T>, p: T -> bool): (r: seq<T>)
    ensures |r| <= |xs|
    ensures forall x :: x in r ==> x in xs && p(x)
    ensures forall x :: x in xs && p(x) ==> x in r
  {
    if xs == [] then []
    else (if p(xs[0]) then [xs[0]] else []) + Filter(xs[1..], p)
  }

  /** Filtering keeps every copy of a row that passes and no copy of one
      that fails. */
  lemma {:induction false} FilterCounts<T>(xs: seq<T>, p: T -> bool)
    ensures forall x :: multiset(Filter(xs, p))[x] == if p(x) then multiset(xs)[x] else 0
  {
    if xs != [] {
      FilterCounts(xs[1..], p);
      assert xs == [xs[0]] + xs[1..];
    }
  }

  /** `a` is `b` with some rows removed and the rest in the same order. */
  predicate IsSubsequence<T(==)>(a: seq<T>, b: seq<T>)
    decreases |b|
  {
    if a == [] then true
    else if b == [] then false
    else if a[0] == b[0] then IsSubsequence(a[1..], b[1..])
    else IsSubsequence(a, b[1..])
  }

  /** Filtering only removes rows; the survivors keep their relative order. */
  lemma {:induction false} FilterIsSubsequence<T>(xs: seq<T>, p: T -> bool)
    ensures IsSubsequence(Filter(xs, p), xs)
  {
    if xs != [] {
      FilterIsSubsequence(xs[1..], p);
      if p(xs[0]) {
        assert Filter(xs, p) == [xs[0]] + Filter(xs[1..], p);
        assert Filter(xs, p)[1..] == Filter(xs[1..], p);
      } else {
        assert Filter(xs, p) == Filter(xs[1..], p);
        assert Filter(xs, p) != [] ==> Filter(xs, p)[0] in Filter(xs, p);
      }
    }
  }

  /** A subsequence of the tail of `c` is a subsequence of `c`. */
  lemma {:induction false} SubsequenceOfTail<T>(a: seq<T>, c: seq<T>)
    requires c != [] && IsSubsequence(a, c[1..])
    ensures IsSubsequence(a, c)
    decreases |a| + |c|, 1
  {
    if a != [] && a[0] == c[0] {
      SubsequenceDropHead(a, c[1..]);
    }
  }

  /** Dropping the first row of a subsequence leaves a subsequence. */
  lemma {:induction false} SubsequenceDropHead<T>(a: seq<T>, c: seq<T>)
    requires a != [] && IsSubsequence(a, c)
    ensures IsSubsequence(a[1..], c)
    decreases |a| + |c|, 0
  {
    if a[0] == c[0] {
      SubsequenceOfTail(a[1..], c);
    } else {
      SubsequenceDropHead(a, c[1..]);
      SubsequenceOfTail(a[1..], c);
    }
  }

  /** No two rows of `xs` share a key. */
  predicate UniqueKeys<T, K(==,!new)>(xs: seq<T>, key: T -> K) {
    forall i, j :: 0 <= i < j < |xs| ==> key(xs[i]) != key(xs[j])
  }

  /** The first row of `xs` with key `k`. */
  function FirstWithKey<T, K(==,!new)>(xs: seq<T>, key: T -> K, k: K): (r: Option<T>)
    ensures r.Some? ==> r.value in xs && key(r.value) == k
    ensures r.None? <==> forall x :: x in xs ==> key(x) != k
  {
    if xs == [] then None
    else if key(xs[0]) == k then Some(xs[0])
    else FirstWithKey(xs[1..], key, k)
  }

  /** `drop_duplicates(subset=key)` with the default `keep='first'`, on the
      rows whose key is not in `seen`. */
  function DedupFrom<T, K(==,!new)>(xs: seq<T>, key: T -> K, seen: set<K>): (r: seq<T>)
    ensures UniqueKeys(r, key)
    ensures forall x :: x in r ==> x in xs && key(x) !in seen
    ensures forall k :: k !in seen ==> FirstWithKey(r, key, k) == FirstWithKey(xs, key, k)
  {
    if xs == [] then []
    else if key(xs[0]) in seen then DedupFrom(xs[1..], key, seen)
    else
      var rest := DedupFrom(xs[1..], key, seen + {key(xs[0])});
      ConsKeepsUnique(xs[0], rest, key);
      ConsKeepsFirst(xs, rest, key, seen);
      [xs[0]] + rest
  }

  /** Putting a row in front of rows with other keys keeps the keys unique. */
  lemma ConsKeepsUnique<T, K(!new)>(x: T, rest: seq<T>, key: T -> K)
    requires UniqueKeys(rest, key)
    requires forall y :: y in rest ==> key(y) != key(x)
    ensures UniqueKeys([x] + rest, key)
  {
    var r := [x] + rest;
    forall i, j | 0 <= i < j < |r| ensures key(r[i]) != key(r[j]) {
      assert r[j] == rest[j - 1] && r[j] in rest;
      if i > 0 {
        assert r[i] == rest[i - 1];
      }
    }
  }

  /** Keeping the head of `xs` in front of a tail that agrees with the rest
      of `xs` on every other key agrees with `xs` on all keys. */
  lemma ConsKeepsFirst<T, K(!new)>(xs: seq<T>, rest: seq<T>, key: T -> K, seen: set<K>)
    requires xs != []
    requires forall k :: k !in seen + {key(xs[0])} ==> FirstWithKey(rest, key, k) == FirstWithKey(xs[1..], key, k)
    ensures forall k :: k !in seen ==> FirstWithKey([xs[0]] + rest, key, k) == FirstWithKey(xs, key, k)
  {
    var r := [xs[0]] + rest;
    forall k | k !in seen ensures FirstWithKey(r, key, k) == FirstWithKey(xs, key, k) {
      if k != key(xs[0]) {
        assert r[1..] == rest;
      }
    }
  }

  /** Deduplication only removes rows; the kept rows stay in input order. */
  lemma {:induction false} DedupFromIsSubsequence<T, K(!new)>(xs: seq<T>, key: T -> K, seen: set<K>)
    ensures IsSubsequence(DedupFrom(xs, key, seen), xs)
  {
    if xs != [] {
      if key(xs[0]) in seen {
        DedupFromIsSubsequence(xs[1..], key, seen);
        SubsequenceOfTail(DedupFrom(xs, key, seen), xs);
      } else {
        var rest := DedupFrom(xs[1..], key, seen + {key(xs[0])});
        DedupFromIsSubsequence(xs[1..], key, seen + {key(xs[0])});
        assert ([xs[0]] + rest)[1..] == rest;
      }
    }
  }

  /** `drop_duplicates(subset=key)`: one row per key, the first one, in
      input order. */
  function Dedup<T, K(==,!new)>(xs: seq<T>, key: T -> K): (r: seq<T>)
    ensures UniqueKeys(r, key)
    ensures forall x :: x in r ==> x in xs
    ensures forall k :: FirstWithKey(r, key, k) == FirstWithKey(xs, key, k)
    ensures IsSubsequence(r, xs)
  {
    DedupFromIsSubsequence(xs, key, {});
    DedupFrom(xs, key, {})
  }

  /** The right-hand rows that join with left row `l`, in right-hand order. */
  function Matching<L, R>(l: L, right: seq<R>, joins: (L, R) -> bool): (r: seq<R>)
    ensures |r| <= |right|
    ensures forall x :: x in r ==> x in right && joins(l, x)
    ensures forall x :: x in right && joins(l, x) ==> x in r
    ensures r == [] <==> forall x :: x in right ==> !joins(l, x)
    ensures forall x :: x in right ==> multiset(r)[x] == if joins(l, x) then multiset(right)[x] else 0
  {
    FilterCounts(right, x => joins(l, x));
    Filter(right, x => joins(l, x))
  }

  /** Output rows contributed by left row `l`: one per match, or a single
      row with a missing right side when nothing matches. */
  function JoinRow<L, R>(l: L, ms: seq<R>): (r: seq<(L, Option<R>)>)
    ensures |r| == if ms == [] then 1 else |ms|
    ensures forall p :: p in r ==> p.0 == l && (p.1.Some? ==> p.1.value in ms) && (p.1.None? ==> ms == [])
    ensures forall m :: m in ms ==> (l, Some(m)) in r
  {
    if ms == [] then [(l, None)]
    else
      var r := seq(|ms|, i requires 0 <= i < |ms| => (l, Some(ms[i])));
      assert forall i :: 0 <= i < |ms| ==> r[i] == (l, Some(ms[i]));
      r
  }

  /** `left.merge(right, how='left')`: left rows in order, each followed by
      its matches in right-hand order. */
  function LeftJoin<L, R>(left: seq<L>, right: seq<R>, joins: (L, R) -> bool): (r: seq<(L, Option<R>)>)
    ensures |r| >= |left|
    ensures forall p :: p in r ==> p.0 in left && (p.1.Some? ==> p.1.value in right && joins(p.0, p.1.value))
  {
    if left == [] then []
    else
      var head := JoinRow(left[0], Matching(left[0], right, joins));
      var rest := LeftJoin(left[1..], right, joins);
      assert forall x :: x in left[1..] ==> x in left;
      head + rest
  }

  /** Nothing a left join should emit is lost: every matching pair is a row,
      and a left row without a match is kept with an empty right side. */
  lemma {:induction false} LeftJoinComplete<L, R>(left: seq<L>, right: seq<R>, joins: (L, R) -> bool)
    ensures forall x, y :: x in left && y in right && joins(x, y) ==> (x, Some(y)) in LeftJoin(left, right, joins)
    ensures forall x :: x in left && Matching(x, right, joins) == [] ==> (x, None) in LeftJoin(left, right, joins)
  {
    if left != [] {
      LeftJoinComplete(left[1..], right, joins);
      var head := JoinRow(left[0], Matching(left[0], right, joins));
      var rest := LeftJoin(left[1..], right, joins);
      assert LeftJoin(left, right, joins) == head + rest;
      forall x | x in left
        ensures forall y :: y in right && joins(x, y) ==> (x, Some(y)) in head + rest
        ensures Matching(x, right, joins) == [] ==> (x, None) in head + rest
      {
        if x != left[0] {
          assert x in left[1..];
        } else {
          assert Matching(x, right, joins) == [] ==> head[0] == (x, None);
        }
      }
    }
  }

  /** A left join keeps the row count exactly when no left row has more than
      one match. */
  lemma {:induction false} LeftJoinRowCount<L, R>(left: seq<L>, right: seq<R>, joins: (L, R) -> bool)
    ensures |LeftJoin(left, right, joins)| == |left| <==>
      forall i :: 0 <= i < |left| ==> |Matching(left[i], right, joins)| <= 1
  {
    if left != [] {
      var rest := left[1..];
      LeftJoinRowCount(rest, right, joins);
      LeftJoinLength(left, right, joins);
      AtMostOneSplit(left, right, joins);
    }
  }

  /** The length of a left join: the first row's share plus the rest's. */
  lemma LeftJoinLength<L, R>(left: seq<L>, right: seq<R>, joins: (L, R) -> bool)
    requires left != []
    ensures |LeftJoin(left, right, joins)| ==
      |JoinRow(left[0], Matching(left[0], right, joins))| + |LeftJoin(left[1..], right, joins)|
  {
  }

  /** Every left row has at most one match exactly when the first one does
      and every later one does. */
  lemma AtMostOneSplit<L, R>(left: seq<L>, right: seq<R>, joins: (L, R) -> bool)
    requires left != []
    ensures (forall i :: 0 <= i < |left| ==> |Matching(left[i], right, joins)| <= 1) <==>
      |Matching(left[0], right, joins)| <= 1 &&
      forall k :: 0 <= k < |left[1..]| ==> |Matching(left[1..][k], right, joins)| <= 1
  {
    assert forall i :: 1 <= i < |left| ==> left[i] == left[1..][i - 1];
  }


  /** The single match of `l`, if any. */
  function Lookup<L, R>(l: L, right: seq<R>, joins: (L, R) -> bool): Option<R> {
    var ms := Matching(l, right, joins);
    if ms == [] then None else Some(ms[0])
  }

  /** When no left row has more than one match the left join is a lookup:
      row `i` of the result is left row `i` paired with its match. */
  lemma {:induction false} LeftJoinIsLookup<L, R>(left: seq<L>, right: seq<R>, joins: (L, R) -> bool)
    requires forall i :: 0 <= i < |left| ==> |Matching(left[i], right, joins)| <= 1
    ensures |LeftJoin(left, right, joins)| == |left|
    ensures forall i :: 0 <= i < |left| ==>
      LeftJoin(left, right, joins)[i] == (left[i], Lookup(left[i], right, joins))
  {
    LeftJoinRowCount(left, right, joins);
    if left != [] {
      assert forall i :: 1 <= i < |left| ==> left[i] == left[1..][i - 1];
      LeftJoinIsLookup(left[1..], right, joins);
      var head := JoinRow(left[0], Matching(left[0], right, joins));
      var tail := LeftJoin(left[1..], right, joins);
      SingleMatchRow(left[0], right, joins);
      assert LeftJoin(left, right, joins) == head + tail;
      forall i | 0 <= i < |left|
        ensures LeftJoin(left, right, joins)[i] == (left[i], Lookup(left[i], right, joins))
      {
        if i == 0 {
          assert (head + tail)[0] == head[0];
        } else {
          var k := i - 1;
          assert (head + tail)[i] == tail[k];
          assert tail[k] == (left[1..][k], Lookup(left[1..][k], right, joins));
          assert left[1..][k] == left[i];
        }
      }
    }
  }

  /** A left row with at most one match contributes exactly one output row:
      itself paired with its lookup. */
  lemma SingleMatchRow<L, R>(l: L, right: seq<R>, joins: (L, R) -> bool)
    requires |Matching(l, right, joins)| <= 1
    ensures JoinRow(l, Matching(l, right, joins)) == [(l, Lookup(l, right, joins))]
  {
  }

  /** Joining on a unique key: a left row whose join condition is "the
      right row's key is `k`" has at most one match, the first row with
      key `k`. */
  lemma {:induction false} KeyLookup<L, R, K(!new)>(l: L, right: seq<R>, joins: (L, R) -> bool, key: R -> K, k: K)
    requires UniqueKeys(right, key)
    requires forall x :: joins(l, x) <==> key(x) == k
    ensures |Matching(l, right, joins)| <= 1
    ensures Lookup(l, right, joins) == FirstWithKey(right, key, k)
  {
    if right != [] {
      assert UniqueKeys(right[1..], key) by {
        forall i, j | 0 <= i < j < |right[1..]| ensures key(right[1..][i]) != key(right[1..][j]) {
          assert right[1..][i] == right[i + 1] && right[1..][j] == right[j + 1];
        }
      }
      KeyLookup(l, right[1..], joins, key, k);
      if key(right[0]) == k {
        assert forall x :: x in right[1..] ==> key(x) != k by {
          forall x | x in right[1..] ensures key(x) != k {
            var j :| 0 <= j < |right[1..]| && right[1..][j] == x;
            assert right[j + 1] == x;
          }
        }
        assert Matching(l, right[1..], joins) == [];
      }
    }
  }

  /** A left row with no matching right row keeps a single output row with a
      missing right side. */
  lemma NoMatchIsMissing<L, R>(l: L, right: seq<R>, joins: (L, R) -> bool)
    requires forall x :: x in right ==> !joins(l, x)
    ensures Lookup(l, right, joins).None?
    ensures LeftJoin([l], right, joins) == [(l, None)]
  {
    assert [l][1..] == [];
  }

  /** Filtering out rows without key `k` does not change the first row with
      key `k`. */
  lemma {:induction false} FirstWithKeyFilter<T, K(!new)>(xs: seq<T>, p: T -> bool, key: T -> K, k: K)
    requires forall x :: x in xs && key(x) == k ==> p(x)
    ensures FirstWithKey(Filter(xs, p), key, k) == FirstWithKey(xs, key, k)
  {
    if xs != [] {
      assert forall x :: x in xs[1..] ==> x in xs;
      FirstWithKeyFilter(xs[1..], p, key, k);
      if p(xs[0]) {
        assert Filter(xs, p) == [xs[0]] + Filter(xs[1..], p);
      } else {
        assert Filter(xs, p) == Filter(xs[1..], p);
        assert key(xs[0]) != k;
      }
    }
  }

  /** A left row with two distinct matches makes the left join longer than
      its left side. */
  lemma TwoMatchesGrowJoin<L, R>(left: seq<L>, right: seq<R>, joins: (L, R) -> bool, i: nat, a: R, b: R)
    requires i < |left| && a != b
    requires a in right && b in right && joins(left[i], a) && joins(left[i], b)
    ensures |LeftJoin(left, right, joins)| > |left|
  {
    var ms := Matching(left[i], right, joins);
    TwoDistinctElements(ms, a, b);
    LeftJoinRowCount(left, right, joins);
  }

  /** A sequence holding two distinct values has at least two elements. */
  lemma TwoDistinctElements<T>(s: seq<T>, a: T, b: T)
    requires a in s && b in s && a != b
    ensures |s| >= 2
  {
    var i :| 0 <= i < |s| && s[i] == a;
    var j :| 0 <= j < |s| && s[j] == b;
    assert i != j;
  }
}

=== FILE: localtime.dfy ===
/** Timezone resolution and UTC-to-local conversion (`to_local` and the
    `final_tz` fallback). Instants are seconds since the Unix epoch in UTC;
    a naive local timestamp is the wall-clock reading in the same unit. */
module LocalTime {
  import opened Optional
  import opened Text
  import opened Calendar

  /** The timezone database: the UTC offset in seconds of a named zone at a
      given instant, or `None` when the name is not a known zone. */
  type ZoneDb = (string, int) -> Option<int>

  /** `to_local(ts, tz)`. */
  function ToLocal(ts: Option<int>, tz: Option<string>, zones: ZoneDb): (r: Option<int>)
    ensures r.None? <==> ts.None? || tz.None? || Lower(tz.value) == "nan"
    ensures r.Some? ==> r.value == ts.value + zones(tz.value, ts.value).GetOr(0)
  {
    if ts.None? || tz.None? || Lower(tz.value) == "nan" then None
    else
      match zones(tz.value, ts.value)
      case Some(offset) => Some(ts.value + offset)
      case None => Some(ts.value)
  }

  /** For a known zone the conversion is undone by subtracting that zone's
      offset at the instant: the local reading loses no information. */
  lemma ToLocalRecoversInstant(ts: int, tz: string, zones: ZoneDb)
    requires Lower(tz) != "nan" && zones(tz, ts).Some?
    ensures ToLocal(Some(ts), Some(tz), zones).Some?
    ensures ToLocal(Some(ts), Some(tz), zones).value - zones(tz, ts).value == ts
  {
  }

  /** An unknown zone name is not an error: the result is the UTC reading
      with the zone dropped, indistinguishable from converting to a zone
      whose offset is zero. */
  lemma UnknownZoneReadsAsUtc(ts: int, tz: string, utc: string, zones: ZoneDb)
    requires Lower(tz) != "nan" && zones(tz, ts).None?
    requires Lower(utc) != "nan" && zones(utc, ts) == Some(0)
    ensures ToLocal(Some(ts), Some(tz), zones) == Some(ts)
    ensures ToLocal(Some(ts), Some(tz), zones) == ToLocal(Some(ts), Some(utc), zones)
  {
  }

  /** "nan" in any letter case counts as a missing zone. */
  lemma NanZoneIsMissing(ts: Option<int>, zones: ZoneDb)
    ensures ToLocal(ts, Some("nan"), zones) == None
    ensures ToLocal(ts, Some("NaN"), zones) == None
    ensures ToLocal(ts, Some("NAN"), zones) == None
  {
    assert Lower("nan") == "nan";
    assert Lower("NaN") == "nan";
    assert Lower("NAN") == "nan";
  }

  /** A conversion that does not cross midnight keeps the calendar date and
      moves the clock by the offset: for instance 10:00 UTC on day `n`, read
      in a zone seven hours ahead of UTC (such as Asia/Jakarta), is 17:00 on
      the same calendar date. */
  lemma SameDayConversion(n: int, clock: int, tz: string, offset: int, zones: ZoneDb)
    requires 0 <= clock < 86400 && 0 <= clock + offset < 86400
    requires Lower(tz) != "nan"
    requires zones(tz, n * 86400 + clock) == Some(offset)
    ensures ToLocal(Some(n * 86400 + clock), Some(tz), zones) == Some(n * 86400 + (clock + offset))
    ensures DateOf(n * 86400 + (clock + offset)) == DateOf(n * 86400 + clock)
    ensures (n * 86400 + (clock + offset)) % 86400 == clock + offset
  {
    ShiftWithinDay(n, clock, tz, offset, zones);
    DateOfSplit(n, clock);
    DateOfSplit(n, clock + offset);
    SplitTimestamp(n, clock + offset);
  }

  lemma ShiftWithinDay(n: int, clock: int, tz: string, offset: int, zones: ZoneDb)
    requires Lower(tz) != "nan"
    requires zones(tz, n * 86400 + clock) == Some(offset)
    ensures ToLocal(Some(n * 86400 + clock), Some(tz), zones) == Some(n * 86400 + (clock + offset))
  {
  }

  /** The zone used for a referral row: the referrer's zone, else the
      referee's, else missing (`referrer_tz.fillna(referee_tz)`). */
  function FinalTz(referrerTz: Option<string>, refereeTz: Option<string>): (r: Option<string>)
    ensures r.None? <==> referrerTz.None? && refereeTz.None?
    ensures referrerTz.Some? ==> r == referrerTz
    ensures referrerTz.None? ==> r == refereeTz
  {
    referrerTz.OrElse(refereeTz)
  }

  /** A row whose zone cannot be resolved gets no local time, whatever its
      timestamp. */
  lemma UnresolvedZoneHasNoLocalTime(ts: Option<int>, zones: ZoneDb)
    ensures ToLocal(ts, FinalTz(None, None), zones) == None
  {
  }
}

=== FILE: optional.dfy ===
/** The missing-value marker shared by every component: `None` stands for
    pandas' NaN / NaT / NA, `Some(v)` for a present value. */
module Optional {

  datatype Option<+T> = None | Some(value: T) {

    /** The value, or `default` when missing (pandas' `fillna(default)`). */
    function GetOr(default: T): T {
      match this
      case Some(v) => v
      case None => default
    }

    /** `this` when present, otherwise `other` (pandas' `a.fillna(b)` on one row). */
    function OrElse(other: Option<T>): Option<T> {
      match this
      case Some(_) => this
      case None => other
    }
  }
}

=== FILE: referralfile.dfy ===
/** Choosing the referral extract among the files of the raw-data
    directory. The directory listing is a sequence of (name, size) entries
    in listing order; the two scripts share the name filter but choose
    differently among the candidates. */
module ReferralFile {
  import opened Optional
  import opened Text
  import opened Joins

  datatype FileEntry = FileEntry(name: string, size: nat)

  /** The name mentions "user_referral" and neither "log" nor "status". */
  predicate IsReferralName(name: string) {
    Contains(name, "user_referral") && !Contains(name, "log") && !Contains(name, "status")
  }

  predicate IsCandidate(e: FileEntry) { IsReferralName(e.name) }

  /** src/time.py only accepts candidates of more than 2000 bytes. */
  predicate IsLargeCandidate(e: FileEntry) { IsReferralName(e.name) && e.size > 2000 }

  /** Position of the first large candidate of the listing. */
  function FirstLargeIndex(entries: seq<FileEntry>): (r: Option<nat>)
    ensures r.Some? ==> r.value < |entries| && IsLargeCandidate(entries[r.value])
    ensures r.Some? ==> forall j :: 0 <= j < r.value ==> !IsLargeCandidate(entries[j])
    ensures r.None? <==> forall j :: 0 <= j < |entries| ==> !IsLargeCandidate(entries[j])
  {
    if entries == [] then None
    else if IsLargeCandidate(entries[0]) then Some(0)
    else
      var rest := FirstLargeIndex(entries[1..]);
      assert forall j :: 1 <= j < |entries| ==> entries[j] == entries[1..][j - 1];
      if rest.None? then None else Some(rest.value + 1)
  }

  /** `get_correct_referral_file` of src/time.py. `listing` is `None` when the
      directory does not exist; the result is the chosen file name. */
  function FirstLargeReferral(listing: Option<seq<FileEntry>>): (r: Option<string>)
    ensures r.None? <==> listing.None? || forall e :: e in listing.value ==> !IsLargeCandidate(e)
    ensures r.Some? ==> exists i ::
      && 0 <= i < |listing.value| && IsLargeCandidate(listing.value[i])
      && r.value == listing.value[i].name
      && (forall j :: 0 <= j < i ==> !IsLargeCandidate(listing.value[j]))
  {
    if listing.None? then None
    else
      var k := FirstLargeIndex(listing.value);
      if k.None? then None else Some(listing.value[k.value].name)
  }

  /** The path src/time.py goes on to read: the chosen file, or the fixed
      name "user_referral.csv" when nothing qualified. */
  function ReferralPath(listing: Option<seq<FileEntry>>): (r: string)
    ensures FirstLargeReferral(listing).None? ==> r == "user_referral.csv"
    ensures FirstLargeReferral(listing).Some? ==> r == FirstLargeReferral(listing).value && IsReferralName(r)
  {
    FirstLargeReferral(listing).GetOr("user_referral.csv")
  }

  /** Sizes never increase along `s`. */
  predicate SortedBySizeDesc(s: seq<FileEntry>) {
    forall i, j :: 0 <= i < j < |s| ==> s[i].size >= s[j].size
  }

  /** Insert `x` in front of the first entry that is not larger, so that `x`
      precedes the entries of equal size that came after it in the input. */
  function Insert(x: FileEntry, s: seq<FileEntry>): (r: seq<FileEntry>)
    ensures |r| == |s| + 1
    ensures multiset(r) == multiset(s) + multiset{x}
    ensures forall y :: y in r ==> y == x || y in s
  {
    if s == [] || s[0].size <= x.size then [x] + s
    else
      assert s == [s[0]] + s[1..];
      [s[0]] + Insert(x, s[1..])
  }

  /** Inserting into a list sorted by decreasing size keeps it sorted. */
  lemma {:induction false} InsertKeepsSorted(x: FileEntry, s: seq<FileEntry>)
    requires SortedBySizeDesc(s)
    ensures SortedBySizeDesc(Insert(x, s))
  {
    if s != [] && s[0].size > x.size {
      var rest := Insert(x, s[1..]);
      assert SortedBySizeDesc(s[1..]);
      InsertKeepsSorted(x, s[1..]);
      assert forall k :: 0 <= k < |rest| ==> rest[k].size <= s[0].size by {
        forall k | 0 <= k < |rest| ensures rest[k].size <= s[0].size {
          assert rest[k] in rest;
        }
      }
      assert Insert(x, s) == [s[0]] + rest;
    }
  }

  /** `candidates.sort(key=size, reverse=True)`: largest first. Of the
      order among equal sizes only what the pick of the first entry needs is
      stated: the head is the earliest listed of the largest (`SortHead`). */
  function SortBySizeDesc(xs: seq<FileEntry>): (r: seq<FileEntry>)
    ensures SortedBySizeDesc(r)
    ensures multiset(r) == multiset(xs)
  {
    if xs == [] then []
    else
      assert xs == [xs[0]] + xs[1..];
      var s := SortBySizeDesc(xs[1..]);
      InsertKeepsSorted(xs[0], s);
      Insert(xs[0], s)
  }

  /** `xs[k]` is the earliest of the largest entries of `xs`. */
  predicate IsEarliestLargest(xs: seq<FileEntry>, k: int) {
    && 0 <= k < |xs|
    && (forall j :: 0 <= j < |xs| ==> xs[j].size <= xs[k].size)
    && (forall j :: 0 <= j < k ==> xs[j].size < xs[k].size)
  }

  /** Putting `x` in front of a list whose earliest largest entry is at `k`
      moves that entry to `k + 1`, unless `x` is at least as large. */
  lemma EarliestLargestCons(x: FileEntry, rest: seq<FileEntry>, k: int)
    requires IsEarliestLargest(rest, k)
    ensures rest[k].size <= x.size ==> IsEarliestLargest([x] + rest, 0)
    ensures rest[k].size > x.size ==> IsEarliestLargest([x] + rest, k + 1)
  {
    assert forall j :: 1 <= j < |rest| + 1 ==> ([x] + rest)[j] == rest[j - 1];
  }

  /** The head of the sorted list is the earliest largest entry. */
  lemma {:induction false} SortHead(xs: seq<FileEntry>)
    requires xs != []
    ensures exists k :: IsEarliestLargest(xs, k) && SortBySizeDesc(xs)[0] == xs[k]
  {
    var rest := xs[1..];
    assert xs == [xs[0]] + rest;
    var s := SortBySizeDesc(rest);
    assert SortBySizeDesc(xs) == Insert(xs[0], s);
    if rest == [] {
      assert IsEarliestLargest(xs, 0);
    } else {
      SortHead(rest);
      var k :| IsEarliestLargest(rest, k) && s[0] == rest[k];
      EarliestLargestCons(xs[0], rest, k);
      if s[0].size <= xs[0].size {
        assert SortBySizeDesc(xs)[0] == xs[0];
      } else {
        assert SortBySizeDesc(xs)[0] == xs[k + 1];
      }
    }
  }

  /** `get_correct_referral_file` of src/timezone_cinversion.py: the first
      entry of the size-sorted candidates, whatever their size. It is the
      earliest listed among the largest candidates. */
  function LargestReferral(entries: seq<FileEntry>): (r: Option<string>)
    ensures r.None? <==> forall e :: e in entries ==> !IsCandidate(e)
    ensures r.Some? ==> exists k ::
      IsEarliestLargest(Filter(entries, IsCandidate), k) && r.value == Filter(entries, IsCandidate)[k].name
  {
    var candidates := Filter(entries, IsCandidate);
    if candidates == [] then None
    else
      assert candidates[0] in candidates;
      SortHead(candidates);
      Some(SortBySizeDesc(candidates)[0].name)
  }

  /** Whenever the first rule finds a file, the second one finds a file at
      least as large, hence also above 2000 bytes. */
  lemma LargestCoversFirstLarge(entries: seq<FileEntry>)
    requires FirstLargeReferral(Some(entries)).Some?
    ensures LargestReferral(entries).Some?
    ensures exists e :: e in entries && IsCandidate(e) && e.size > 2000 && LargestReferral(entries).value == e.name
  {
    var i :| 0 <= i < |entries| && IsLargeCandidate(entries[i]);
    var candidates := Filter(entries, IsCandidate);
    assert entries[i] in candidates;
    var r := LargestReferral(entries);
    var k :| IsEarliestLargest(candidates, k) && r.value == candidates[k].name;
    var m :| 0 <= m < |candidates| && candidates[m] == entries[i];
    assert candidates[k].size >= candidates[m].size;
    assert candidates[k] in candidates;
    assert candidates[k] in entries && IsCandidate(candidates[k]) && candidates[k].size > 2000;
  }
}

=== FILE: report.dfy ===
/** The final report of src/fraud_check.py: one row per enriched referral
    with its report id, referral id, source, source category and verdict. */
module Report {
  import opened Optional
  import opened Rules
  import opened Enrichment
  import SourceCategory

  /** The enriched table. Optional columns are `None` when the table lacks
      them; a present column has one cell per row. */
  datatype Table = Table(
    rows: seq<EnrichedRow>,
    ids: Option<seq<int>>,                       // `id`
    referralIds: Option<seq<string>>,            // `referral_id`
    sources: Option<seq<Option<string>>>,        // `referral_source`
    categories: Option<seq<Option<string>>>)     // `referral_source_category`

  predicate ColumnFits<T>(col: Option<seq<T>>, n: nat) {
    col.Some? ==> |col.value| == n
  }

  /** Every present column is as long as the table. */
  predicate WellShaped(t: Table) {
    var n := |t.rows|;
    ColumnFits(t.ids, n) && ColumnFits(t.referralIds, n) && ColumnFits(t.sources, n) && ColumnFits(t.categories, n)
  }

  /** A `referral_id` cell of the report: copied text, a copied numeric `id`,
      or the filler text "Unknown". */
  datatype ReportId = IdText(text: string) | IdNumber(number: int)

  datatype ReportRow = ReportRow(
    detailsId: int,                  // `referral_details_id`
    referralId: ReportId,            // `referral_id`
    source: Option<string>,          // `referral_source`
    category: Option<string>,        // `referral_source_category`
    valid: bool)                     // `is_business_logic_valid`

  /** Category of row `i`: the stored cell; failing that, recomputed from
      the source; failing that, the filler text "Unknown". */
  function CategoryAt(t: Table, i: nat): (r: Option<string>)
    requires WellShaped(t) && i < |t.rows|
    ensures t.categories.Some? ==> r == t.categories.value[i]
    ensures t.categories.None? ==> r.Some? && r.value in {"Online", "Offline", "Other", "Unknown"}
    ensures t.categories.None? && t.sources.Some? ==> r == Some(SourceCategory.ClassifyCell(t.sources.value[i]).Label())
    ensures t.categories.None? ==> (r == Some("Unknown") <==> t.sources.None?)
  {
    if t.categories.Some? then t.categories.value[i]
    else if t.sources.Some? then Some(SourceCategory.ClassifyCell(t.sources.value[i]).Label())
    else Some("Unknown")
  }

  /** Report row `i`: the row's own `id`, else the counter 101 + i; the
      `referral_id`, else the numeric `id`, else "Unknown"; the source, else
      "Unknown"; the category of `CategoryAt`; and the verdict, which accepts
      the row exactly when all ten checks pass or it is pending/failed
      without a reward. */
  function RowFor(t: Table, clock: int, i: nat): (row: ReportRow)
    requires WellShaped(t) && i < |t.rows|
    ensures var f := DeriveFlags(t.rows[i], clock);
      row.valid <==> AllChecksPass(f) || (f.isPendingOrFailed && !f.hasReward)
  {
    var detailsId := if t.ids.Some? then t.ids.value[i] else 101 + i;
    var referralId := if t.referralIds.Some? then IdText(t.referralIds.value[i])
                      else if t.ids.Some? then IdNumber(t.ids.value[i])
                      else IdText("Unknown");
    var source := if t.sources.Some? then t.sources.value[i] else Some("Unknown");
    ReportRow(detailsId, referralId, source, CategoryAt(t, i), IsValid(t.rows[i], clock))
  }

  /** Builds the report row by row: one row per table row, in order. */
  method BuildReport(t: Table, clock: int) returns (r: seq<ReportRow>)
    requires WellShaped(t)
    ensures |r| == |t.rows|
    ensures forall i :: 0 <= i < |t.rows| ==> r[i] == RowFor(t, clock, i)
  {
    r := [];
    var i := 0;
    while i < |t.rows|
      invariant 0 <= i <= |t.rows|
      invariant |r| == i
      invariant forall j :: 0 <= j < i ==> r[j] == RowFor(t, clock, j)
    {
      r := r + [RowFor(t, clock, i)];
      i := i + 1;
    }
  }

  /** Without an `id` column the report ids are 101, 102, ..., 100 + n: they
      start at 101, rise by one per row, and are pairwise distinct. */
  method ReportIdsWithoutIdColumn(t: Table, clock: int) returns (ids: seq<int>)
    requires WellShaped(t) && t.ids.None?
    ensures |ids| == |t.rows|
    ensures forall i :: 0 <= i < |ids| ==> ids[i] == 101 + i
    ensures forall i, j :: 0 <= i < j < |ids| ==> ids[i] < ids[j]
  {
    var report := BuildReport(t, clock);
    ids := seq(|report|, i requires 0 <= i < |report| => report[i].detailsId);
    assert forall i :: 0 <= i < |ids| ==> report[i] == RowFor(t, clock, i);
  }
}

=== FILE: rules.dfy ===
/** The validity rule engine (`check_logic`): a prioritised list of rules
    over the derived boolean flags of one enriched referral row, where the
    first rule whose condition holds decides the verdict. */
module Rules {
  import opened Optional

  /** The derived flags of one row. The two status flags are computed from
      the same text by overlapping patterns, so both may hold at once. */
  datatype Flags = Flags(
    hasReward: bool,
    isSuccess: bool,
    isPendingOrFailed: bool,
    hasTransId: bool,
    isTransPaid: bool,
    isTransNew: bool,
    txAfterRef: bool,
    sameMonth: bool,
    isMemberActive: bool,
    isAccountActive: bool,
    isGranted: bool)

  /** The rules of `check_logic`, named after the case each one catches. */
  datatype Rule =
    | Perfect
    | PendingWithoutReward
    | RewardWithoutSuccess
    | RewardWithoutTransaction
    | PaidWithoutReward
    | SuccessWithoutReward
    | TransactionBeforeReferral

  /** The condition under which a rule fires. */
  predicate Fires(rule: Rule, f: Flags) {
    match rule
    case Perfect =>
      f.hasReward && f.isSuccess && f.hasTransId && f.isTransPaid && f.isTransNew
      && f.txAfterRef && f.sameMonth && f.isMemberActive && f.isAccountActive && f.isGranted
    case PendingWithoutReward => f.isPendingOrFailed && !f.hasReward
    case RewardWithoutSuccess => f.hasReward && !f.isSuccess
    case RewardWithoutTransaction => f.hasReward && !f.hasTransId
    case PaidWithoutReward => !f.hasReward && f.hasTransId && f.isTransPaid && f.txAfterRef
    case SuccessWithoutReward => f.isSuccess && !f.hasReward
    case TransactionBeforeReferral => f.hasTransId && !f.txAfterRef
  }

  /** The verdict a rule gives when it fires: only the first two accept. */
  function Verdict(rule: Rule): bool {
    rule == Perfect || rule == PendingWithoutReward
  }

  /** The rules in the order `check_logic` tries them. */
  const RuleTable: seq<Rule> := [
    Perfect, PendingWithoutReward, RewardWithoutSuccess, RewardWithoutTransaction,
    PaidWithoutReward, SuccessWithoutReward, TransactionBeforeReferral
  ]

  /** Position of the first rule of `rules` that fires on `f`, if any: it
      fires, and no rule before it does; `None` means no rule fires. */
  function FirstMatch(rules: seq<Rule>, f: Flags): (r: Option<nat>)
    ensures r.Some? ==> r.value < |rules| && Fires(rules[r.value], f)
    ensures r.Some? ==> forall j :: 0 <= j < r.value ==> !Fires(rules[j], f)
    ensures r.None? ==> forall j :: 0 <= j < |rules| ==> !Fires(rules[j], f)
  {
    if rules == [] then None
    else if Fires(rules[0], f) then Some(0)
    else
      match FirstMatch(rules[1..], f)
      case None => None
      case Some(k) => Some(k + 1)
  }

  /** The verdict of the first firing rule of `rules`; when none fires the
      row is rejected (the final `return False`). */
  function Evaluate(rules: seq<Rule>, f: Flags): (r: bool)
    ensures r <==> exists k :: 0 <= k < |rules| && Decides(rules, f, k) && Verdict(rules[k])
    ensures (forall j :: 0 <= j < |rules| ==> !Fires(rules[j], f)) ==> !r
  {
    var m := FirstMatch(rules, f);
    assert forall k :: 0 <= k < |rules| && Decides(rules, f, k) ==> m == Some(k);
    match m
    case Some(k) => assert Decides(rules, f, k); Verdict(rules[k])
    case None => false
  }

  /** Rule `k` decides: it fires and no earlier rule does. */
  predicate Decides(rules: seq<Rule>, f: Flags, k: nat)
    requires k < |rules|
  {
    Fires(rules[k], f) && forall j :: 0 <= j < k ==> !Fires(rules[j], f)
  }

  /** All ten conditions of the perfect path hold. */
  predicate AllChecksPass(f: Flags) {
    f.hasReward && f.isSuccess && f.hasTransId && f.isTransPaid && f.isTransNew
    && f.txAfterRef && f.sameMonth && f.isMemberActive && f.isAccountActive && f.isGranted
  }

  /** `check_logic(row)`: it accepts exactly the rows that pass all ten
      checks and the pending/failed rows without a reward; every later rule
      and the fall-through reject. */
  function CheckLogic(f: Flags): (r: bool)
    ensures r <==> AllChecksPass(f) || (f.isPendingOrFailed && !f.hasReward)
  {
    assert RuleTable == [Perfect, PendingWithoutReward] + RuleTable[2..];
    AcceptingRulesFirst(RuleTable[2..], f);
    Evaluate(RuleTable, f)
  }

  /** A reward without a successful status is always rejected, whatever the
      other flags say. */
  lemma RewardWithoutSuccessRejected(f: Flags)
    requires f.hasReward && !f.isSuccess
    ensures !CheckLogic(f)
  {
  }

  /** The rule that decides a row is determined by the flags alone: it is
      the one at position `k` exactly when it fires and no earlier rule
      does, so at most one position qualifies. */
  lemma DecidingRuleUnique(f: Flags, k: nat, k': nat)
    requires k < |RuleTable| && k' < |RuleTable|
    requires Fires(RuleTable[k], f) && forall j :: 0 <= j < k ==> !Fires(RuleTable[j], f)
    requires Fires(RuleTable[k'], f) && forall j :: 0 <= j < k' ==> !Fires(RuleTable[j], f)
    ensures k == k'
    ensures FirstMatch(RuleTable, f) == Some(k)
  {
  }

  /** With the two accepting rules tried first, a list of rejecting rules
      after them accepts exactly the perfect rows and the pending/failed rows
      without a reward, whatever those rejecting rules are and in whatever
      order they come. */
  lemma {:induction false} AcceptingRulesFirst(rest: seq<Rule>, f: Flags)
    requires forall j :: 0 <= j < |rest| ==> !Verdict(rest[j])
    ensures Evaluate([Perfect, PendingWithoutReward] + rest, f) <==>
      AllChecksPass(f) || (f.isPendingOrFailed && !f.hasReward)
  {
    var rules := [Perfect, PendingWithoutReward] + rest;
    assert rules[0] == Perfect && rules[1] == PendingWithoutReward;
    match FirstMatch(rules, f)
    case None =>
    case Some(k) =>
      if k >= 2 {
        assert rules[k] == rest[k - 2];
      }
  }

  /** Reordering or dropping the rejecting rules of `check_logic` never
      changes a verdict. */
  lemma RejectingRulesInterchangeable(rest: seq<Rule>, f: Flags)
    requires forall j :: 0 <= j < |rest| ==> !Verdict(rest[j])
    ensures Evaluate([Perfect, PendingWithoutReward] + rest, f) == CheckLogic(f)
  {
    AcceptingRulesFirst(rest, f);
  }
}

=== FILE: sourcecategory.dfy ===
/** The referral source classifier (`get_source_category`). */
module SourceCategory {
  import opened Optional
  import opened Text

  datatype Category = Online | Offline | Other {
    /** The label written to the report. */
    function Label(): string {
      match this
      case Online => "Online"
      case Offline => "Offline"
      case Other => "Other"
    }
  }

  const OnlineKeywords: seq<string> := ["user sign up", "app", "web", "online"]
  const OfflineKeywords: seq<string> := ["draft transaction", "lead", "walk"]

  /** `get_source_category(source)` on the string form of the cell. The
      result is Online when the lower-cased text contains an online keyword,
      whatever else it contains; Offline when it contains an offline keyword
      but no online one; Other exactly when it contains neither. */
  function Classify(source: string): (r: Category)
    ensures r == Online <==> ContainsAny(Lower(source), OnlineKeywords)
    ensures r == Offline <==>
      !ContainsAny(Lower(source), OnlineKeywords) && ContainsAny(Lower(source), OfflineKeywords)
    ensures r == Other <==>
      !ContainsAny(Lower(source), OnlineKeywords) && !ContainsAny(Lower(source), OfflineKeywords)
  {
    var s := Lower(source);
    if ContainsAny(s, OnlineKeywords) then Online
    else if ContainsAny(s, OfflineKeywords) then Offline
    else Other
  }

  /** A missing source is classified from its string form "nan". */
  function ClassifyCell(source: Option<string>): Category {
    Classify(source.GetOr("nan"))
  }

  /** The label is always exactly one of the three category names. */
  lemma LabelIsOneOfThree(source: string)
    ensures Classify(source).Label() in {"Online", "Offline", "Other"}
    ensures Classify(source).Label() == "Online" <==> Classify(source) == Online
    ensures Classify(source).Label() == "Offline" <==> Classify(source) == Offline
  {
  }

  /** Online wins a tie: a source with both an online and an offline
      keyword is Online. */
  lemma OnlineHasPriority(source: string, i: nat, j: nat)
    requires i < |OnlineKeywords| && j < |OfflineKeywords|
    requires Contains(Lower(source), OnlineKeywords[i])
    requires Contains(Lower(source), OfflineKeywords[j])
    ensures Classify(source) == Online
  {
  }

  /** Classification ignores the letter case of ASCII letters. */
  lemma ClassifyIgnoresCase(source: string)
    ensures Classify(Upper(source)) == Classify(source)
    ensures Classify(Lower(source)) == Classify(source)
  {
    LowerAbsorbsCase(source);
  }

  /** A missing source is Other. */
  lemma MissingSourceIsOther()
    ensures ClassifyCell(None) == Other
  {
    var s := "nan";
    assert Lower(s) == s;
    OccurrenceHead(s, "user sign up");
    OccurrenceHead(s, "app");
    OccurrenceHead(s, "web");
    OccurrenceHead(s, "online");
    OccurrenceHead(s, "draft transaction");
    OccurrenceHead(s, "lead");
    OccurrenceHead(s, "walk");
  }

  /** A sign-up through the app is Online. */
  lemma SignUpIsOnline()
    ensures Classify("User Sign Up via App") == Online
  {
    var s := Lower("User Sign Up via App");
    assert s == "user sign up via app";
    assert OccursAt(s, OnlineKeywords[0], 0);
  }

  /** A draft transaction from a walk-in is Offline. */
  lemma WalkInIsOffline()
    ensures Classify("Draft Transaction - Walk In") == Offline
  {
    var t := "draft transaction - walk in";
    assert Lower("Draft Transaction - Walk In") == t;
    assert ContainsAny(t, OfflineKeywords) by {
      assert OccursAt(t, OfflineKeywords[0], 0);
    }
    WalkInHasNoOnlineKeyword();
  }

  /** A referral code matches no keyword and is Other. */
  lemma ReferralCodeIsOther()
    ensures Classify("Referral Code") == Other
  {
    assert Lower("Referral Code") == "referral code";
    ReferralCodeHasNoOnlineKeyword();
    ReferralCodeHasNoOfflineKeyword();
  }

  lemma ReferralCodeHasNoOnlineKeyword()
    ensures !ContainsAny("referral code", OnlineKeywords)
  {
    var s := "referral code";
    assert !Contains(s, OnlineKeywords[0]) by { OccurrenceUsesChar(s, "user sign up", 0); }
    assert !Contains(s, OnlineKeywords[1]) by { OccurrenceUsesChar(s, "app", 1); }
    assert !Contains(s, OnlineKeywords[2]) by { OccurrenceUsesChar(s, "web", 0); }
    assert !Contains(s, OnlineKeywords[3]) by { OccurrenceUsesChar(s, "online", 1); }
  }

  lemma ReferralCodeHasNoOfflineKeyword()
    ensures !ContainsAny("referral code", OfflineKeywords)
  {
    var s := "referral code";
    assert !Contains(s, OfflineKeywords[0]) by { OccurrenceUsesChar(s, "draft transaction", 4); }
    assert !Contains(s, OfflineKeywords[1]) by { OccurrenceUsesPair(s, "lead", 0); }
    assert !Contains(s, OfflineKeywords[2]) by { OccurrenceUsesChar(s, "walk", 0); }
  }

  lemma WalkInHasNoOnlineKeyword()
    ensures !ContainsAny("draft transaction - walk in", OnlineKeywords)
  {
    var s := "draft transaction - walk in";
    assert !Contains(s, OnlineKeywords[0]) by { OccurrenceUsesChar(s, "user sign up", 0); }
    assert !Contains(s, OnlineKeywords[1]) by { OccurrenceUsesChar(s, "app", 1); }
    assert !Contains(s, OnlineKeywords[2]) by { OccurrenceUsesChar(s, "web", 2); }
    assert !Contains(s, OnlineKeywords[3]) by { OccurrenceUsesChar(s, "online", 5); }
  }
}

=== FILE: text.dfy ===
/** String helpers with the meaning Python gives them on `str`:
    case mapping (ASCII letters only), `strip()`, `endswith`, and the
    substring test `x in s`. */
module Text {

  /** Python's `str.lower()` restricted to ASCII letters. */
  function LowerChar(c: char): char {
    if 'A' <= c <= 'Z' then (c as int + 32) as char else c
  }

  /** Python's `str.upper()` restricted to ASCII letters. */
  function UpperChar(c: char): char {
    if 'a' <= c <= 'z' then (c as int - 32) as char else c
  }

  function Lower(s: string): string {
    seq(|s|, i requires 0 <= i < |s| => LowerChar(s[i]))
  }

  function Upper(s: string): string {
    seq(|s|, i requires 0 <= i < |s| => UpperChar(s[i]))
  }

  /** Lower-casing forgets any earlier case mapping. */
  lemma LowerAbsorbsCase(s: string)
    ensures Lower(Lower(s)) == Lower(s)
    ensures Lower(Upper(s)) == Lower(s)
    ensures Upper(Lower(s)) == Upper(s)
  {
  }

  /** The characters for which Python's `str.isspace()` is true, i.e. what
      `str.strip()` with no argument removes. */
  predicate IsSpace(c: char) {
    var n := c as int;
    || 0x09 <= n <= 0x0D || 0x1C <= n <= 0x20
    || n == 0x85 || n == 0xA0 || n == 0x1680
    || 0x2000 <= n <= 0x200A
    || n == 0x2028 || n == 0x2029 || n == 0x202F || n == 0x205F || n == 0x3000
  }

  /** `s.lstrip()`: drops the leading whitespace and nothing else. */
  function TrimStart(s: string): (r: string)
    ensures |r| <= |s| && r == s[|s| - |r|..]
    ensures forall i :: 0 <= i < |s| - |r| ==> IsSpace(s[i])
    ensures r == [] || !IsSpace(r[0])
  {
    if s != [] && IsSpace(s[0]) then TrimStart(s[1..]) else s
  }

  /** `s.rstrip()`: drops the trailing whitespace and nothing else. */
  function TrimEnd(s: string): (r: string)
    ensures |r| <= |s| && r == s[..|r|]
    ensures forall i :: |r| <= i < |s| ==> IsSpace(s[i])
    ensures r == [] || !IsSpace(r[|r| - 1])
  {
    if s != [] && IsSpace(s[|s| - 1]) then TrimEnd(s[..|s| - 1]) else s
  }

  /** `r` is `s` with `k` characters of whitespace cut from the front and
      all whitespace after `r` cut from the back. */
  predicate StripsTo(s: string, k: int, r: string) {
    && 0 <= k <= |s| - |r|
    && r == s[k..k + |r|]
    && (forall i :: 0 <= i < k ==> IsSpace(s[i]))
    && (forall i :: k + |r| <= i < |s| ==> IsSpace(s[i]))
  }

  /** `s.strip()`: removes the leading and the trailing whitespace. */
  function Strip(s: string): (r: string)
    ensures |r| <= |s|
    ensures r == [] || (!IsSpace(r[0]) && !IsSpace(r[|r| - 1]))
  {
    TrimEnd(TrimStart(s))
  }

  /** What `Strip` cuts away is whitespace and nothing else: its result is a
      slice of `s` with only whitespace before and after it. */
  lemma StripIsSlice(s: string)
    ensures exists k :: StripsTo(s, k, Strip(s))
  {
    var t := TrimStart(s);
    var r := TrimEnd(t);
    var k := |s| - |t|;
    assert r == s[k..k + |r|];
    assert forall i :: k + |r| <= i < |s| ==> s[i] == t[i - k];
    assert StripsTo(s, k, r);
    assert r == Strip(s);
  }

  /** A string is its own strip exactly when it has no whitespace at either end. */
  lemma StripFixpoint(s: string)
    ensures Strip(s) == s <==> (s == [] || (!IsSpace(s[0]) && !IsSpace(s[|s| - 1])))
  {
  }

  predicate AllSpace(s: string) {
    forall i :: 0 <= i < |s| ==> IsSpace(s[i])
  }

  lemma {:induction false} TrimStartPadded(a: string, u: string)
    requires AllSpace(a)
    requires u == [] || !IsSpace(u[0])
    ensures TrimStart(a + u) == u
    decreases |a|
  {
    if a != [] {
      assert (a + u)[1..] == a[1..] + u;
      TrimStartPadded(a[1..], u);
    }
  }

  lemma {:induction false} TrimEndPadded(u: string, b: string)
    requires AllSpace(b)
    requires u == [] || !IsSpace(u[|u| - 1])
    ensures TrimEnd(u + b) == u
    decreases |b|
  {
    if b != [] {
      assert (u + b)[..|u + b| - 1] == u + b[..|b| - 1];
      TrimEndPadded(u, b[..|b| - 1]);
    }
  }

  /** Surrounding whitespace is exactly what `Strip` removes. */
  lemma StripPadded(a: string, t: string, b: string)
    requires AllSpace(a) && AllSpace(b)
    requires t == [] || (!IsSpace(t[0]) && !IsSpace(t[|t| - 1]))
    ensures Strip(a + t + b) == (if t == [] then [] else t)
  {
    if t == [] {
      assert a + t + b == a + b;
      assert AllSpace(a + b);
      TrimStartPadded(a + b, []);
      assert a + b + [] == a + b;
    } else {
      assert a + t + b == a + (t + b);
      TrimStartPadded(a, t + b);
      TrimEndPadded(t, b);
    }
  }

  /** `s.startswith(p)` */
  predicate StartsWith(s: string, p: string) {
    |p| <= |s| && s[..|p|] == p
  }

  /** `s.endswith(p)` */
  predicate EndsWith(s: string, p: string) {
    |p| <= |s| && s[|s| - |p|..] == p
  }

  /** `p` occurs in `s` at position `i`. */
  predicate OccursAt(s: string, p: string, i: int) {
    0 <= i <= |s| - |p| && s[i..i + |p|] == p
  }

  /** `p in s` */
  predicate Contains(s: string, p: string) {
    exists i :: 0 <= i <= |s| - |p| && OccursAt(s, p, i)
  }

  /** An occurrence agrees with the pattern on its first three characters;
      enough to refute `p in s` for a literal `s` position by position. */
  lemma OccurrenceHead(s: string, p: string)
    requires |p| >= 3
    ensures forall i :: OccursAt(s, p, i) ==> s[i] == p[0]
    ensures forall i :: OccursAt(s, p, i) ==> s[i + 1] == p[1]
    ensures forall i :: OccursAt(s, p, i) ==> s[i + 2] == p[2]
  {
    forall i | OccursAt(s, p, i) ensures s[i] == p[0] && s[i + 1] == p[1] && s[i + 2] == p[2] {
      assert s[i..i + |p|][0] == s[i];
      assert s[i..i + |p|][1] == s[i + 1];
      assert s[i..i + |p|][2] == s[i + 2];
    }
  }

  /** Every character of an occurring pattern is a character of `s`; so a
      pattern using a character that `s` lacks does not occur in it. */
  lemma OccurrenceUsesChar(s: string, p: string, k: nat)
    requires k < |p|
    ensures Contains(s, p) ==> exists i :: 0 <= i < |s| && s[i] == p[k]
  {
    if Contains(s, p) {
      var i :| 0 <= i <= |s| - |p| && OccursAt(s, p, i);
      assert s[i..i + |p|][k] == s[i + k];
    }
  }

  /** `any(p in s for p in ps)` */
  predicate ContainsAny(s: string, ps: seq<string>) {
    exists j :: 0 <= j < |ps| && Contains(s, ps[j])
  }

  /** An occurrence of `p` shows every pair of adjacent characters of `p`
      somewhere in `s`. */
  lemma OccurrenceUsesPair(s: string, p: string, k: nat)
    requires k + 1 < |p|
    ensures Contains(s, p) ==> exists i :: 0 <= i < |s| - 1 && s[i] == p[k] && s[i + 1] == p[k + 1]
  {
    if Contains(s, p) {
      var i :| 0 <= i <= |s| - |p| && OccursAt(s, p, i);
      assert s[i + k] == p[k] && s[i + k + 1] == p[k + 1];
    }
  }
}

=== FILE: zoneresolution.dfy ===
/** Attaching home-club time zones to referrals and converting the referral
    time to local time, in the two variants of the pipeline: deduplicating
    the user table on the user id alone (src/time.py) or on (user id,
    time zone) pairs followed by dropping unconvertible rows
    (src/timezone_cinversion.py). */
module ZoneResolution {
  import opened Optional
  import opened Joins
  import opened LocalTime
  import Text
  import Enrichment

  /** One row of the user table after `clean_id` has been applied to its id. */
  datatype UserRecord = UserRecord(
    userId: Option<string>,
    timezone: Option<string>,         // `timezone_homeclub`
    expiry: Option<int>,              // `membership_expired_date`
    deleted: Enrichment.Cell)         // `is_deleted`

  /** The columns of a referral row the resolution reads. */
  datatype Referral = Referral(
    referrerId: Option<string>,
    refereeId: Option<string>,
    referralAt: Option<int>)          // `referral_at` as UTC seconds

  /** A referral after both user joins of src/time.py. */
  datatype MemberResolved = MemberResolved(
    referral: Referral,
    referrer: Option<UserRecord>,
    referee: Option<UserRecord>,
    finalTz: Option<string>)

  function UserKey(u: UserRecord): Option<string> { u.userId }

  predicate HasUserId(u: UserRecord) { u.userId.Some? }

  /** `tz_map` of src/time.py: users with an id, first row per id. */
  function MemberMap(users: seq<UserRecord>): (r: seq<UserRecord>)
    ensures UniqueKeys(r, UserKey)
    ensures forall u :: u in r ==> u in users && u.userId.Some?
  {
    Dedup(Filter(users, HasUserId), UserKey)
  }

  predicate JoinsReferrer(r: Referral, u: UserRecord) {
    r.referrerId.Some? && u.userId == r.referrerId
  }

  predicate JoinsReferee(p: (Referral, Option<UserRecord>), u: UserRecord) {
    p.0.refereeId.Some? && u.userId == p.0.refereeId
  }

  function TimezoneOf(u: Option<UserRecord>): Option<string> {
    if u.Some? then u.value.timezone else None
  }

  /** Both left joins against `tz_map` followed by the `final_tz` fill. */
  function ResolveMembers(refs: seq<Referral>, users: seq<UserRecord>): (r: seq<MemberResolved>)
    ensures |r| >= |refs|
    ensures forall x :: x in r ==> ResolvedFrom(x, refs, users)
  {
    var tzMap := MemberMap(users);
    var first := LeftJoin(refs, tzMap, JoinsReferrer);
    var rows := LeftJoin(first, tzMap, JoinsReferee);
    var r := seq(|rows|, i requires 0 <= i < |rows| =>
      MemberResolved(rows[i].0.0, rows[i].0.1, rows[i].1,
                     FinalTz(TimezoneOf(rows[i].0.1), TimezoneOf(rows[i].1))));
    assert forall i :: 0 <= i < |r| ==> ResolvedFrom(r[i], refs, users) by {
      forall i | 0 <= i < |r| ensures ResolvedFrom(r[i], refs, users) {
        assert rows[i] in rows;
        assert rows[i].0 in first;
      }
    }
    r
  }

  /** A resolved row comes from one of the referrals, and each user attached
      to it is a user row carrying that side's id. */
  predicate ResolvedFrom(x: MemberResolved, refs: seq<Referral>, users: seq<UserRecord>) {
    && x.referral in refs
    && (x.referrer.Some? ==> x.referrer.value in users && x.referral.referrerId.Some? && x.referrer.value.userId == x.referral.referrerId)
    && (x.referee.Some? ==> x.referee.value in users && x.referral.refereeId.Some? && x.referee.value.userId == x.referral.refereeId)
    && x.finalTz == FinalTz(TimezoneOf(x.referrer), TimezoneOf(x.referee))
  }

  /** The user row a referral id resolves to: the first user row carrying
      that id; a missing id resolves to nothing. */
  function UserWithId(users: seq<UserRecord>, id: Option<string>): (r: Option<UserRecord>)
    ensures r.Some? ==> id.Some? && r.value in users && r.value.userId == id
    ensures r.None? ==> id.None? || forall u :: u in users ==> u.userId != id
  {
    if id.None? then None else FirstWithKey(users, UserKey, id)
  }

  /** Looking an id up in `tz_map` finds the first user row with that id. */
  lemma MemberMapLookup(users: seq<UserRecord>, id: Option<string>)
    ensures id.Some? ==> FirstWithKey(MemberMap(users), UserKey, id) == UserWithId(users, id)
  {
    if id.Some? {
      FirstWithKeyFilter(users, HasUserId, UserKey, id);
    }
  }

  /** Joining a row whose key is `id` against `tz_map` yields at most one
      match, the user `UserWithId` finds. */
  lemma MemberJoinIsLookup<L>(l: L, users: seq<UserRecord>, joins: (L, UserRecord) -> bool, id: Option<string>)
    requires forall u :: joins(l, u) <==> id.Some? && u.userId == id
    ensures |Matching(l, MemberMap(users), joins)| <= 1
    ensures Lookup(l, MemberMap(users), joins) == UserWithId(users, id)
  {
    var tzMap := MemberMap(users);
    if id.Some? {
      KeyLookup(l, tzMap, joins, UserKey, id);
      MemberMapLookup(users, id);
    } else {
      NoMatchIsMissing(l, tzMap, joins);
    }
  }

  /** Deduplicating `tz_map` on the user id makes both joins lookups: the
      result has exactly one row per referral, in order, carrying the first
      user row for each side and the referrer's zone falling back to the
      referee's. */
  lemma {:induction false} ResolveMembersIsLookup(refs: seq<Referral>, users: seq<UserRecord>)
    ensures |ResolveMembers(refs, users)| == |refs|
    ensures forall i :: 0 <= i < |refs| ==>
      var row := ResolveMembers(refs, users)[i];
      && row.referral == refs[i]
      && row.referrer == UserWithId(users, refs[i].referrerId)
      && row.referee == UserWithId(users, refs[i].refereeId)
      && row.finalTz == FinalTz(TimezoneOf(row.referrer), TimezoneOf(row.referee))
  {
    var tzMap := MemberMap(users);
    forall i | 0 <= i < |refs|
      ensures |Matching(refs[i], tzMap, JoinsReferrer)| <= 1
      ensures Lookup(refs[i], tzMap, JoinsReferrer) == UserWithId(users, refs[i].referrerId)
    {
      MemberJoinIsLookup(refs[i], users, JoinsReferrer, refs[i].referrerId);
    }
    LeftJoinIsLookup(refs, tzMap, JoinsReferrer);
    var first := LeftJoin(refs, tzMap, JoinsReferrer);
    forall i | 0 <= i < |first|
      ensures |Matching(first[i], tzMap, JoinsReferee)| <= 1
      ensures Lookup(first[i], tzMap, JoinsReferee) == UserWithId(users, refs[i].refereeId)
    {
      MemberJoinIsLookup(first[i], users, JoinsReferee, refs[i].refereeId);
    }
    LeftJoinIsLookup(first, tzMap, JoinsReferee);
  }

  /** A (user id, time zone) row of the `tz_map` of
      src/timezone_cinversion.py. */
  type ZonePair = (string, string)

  /** The user table projected to (id, zone) with rows missing either
      dropped, in table order. */
  function ZonePairs(users: seq<UserRecord>): (r: seq<ZonePair>)
    ensures forall p :: p in r ==> exists u :: u in users && u.userId == Some(p.0) && u.timezone == Some(p.1)
    ensures forall u :: u in users && u.userId.Some? && u.timezone.Some? ==> (u.userId.value, u.timezone.value) in r
  {
    if users == [] then []
    else
      var u := users[0];
      var rest := ZonePairs(users[1..]);
      assert forall v :: v in users[1..] ==> v in users;
      if u.userId.Some? && u.timezone.Some? then [(u.userId.value, u.timezone.value)] + rest else rest
  }

  function WholePair(p: ZonePair): ZonePair { p }

  function PairUser(p: ZonePair): string { p.0 }

  /** `tz_map` of src/timezone_cinversion.py: complete (id, zone) pairs,
      duplicates of a whole pair removed. */
  function ZoneMap(users: seq<UserRecord>): (r: seq<ZonePair>)
    ensures UniqueKeys(r, WholePair)
    ensures forall p :: p in r ==> p in ZonePairs(users)
  {
    Dedup(ZonePairs(users), WholePair)
  }

  /** A referral after both zone joins of src/timezone_cinversion.py. */
  datatype ZoneResolved = ZoneResolved(
    referral: Referral,
    referrerTz: Option<string>,
    refereeTz: Option<string>,
    finalTz: Option<string>)

  predicate JoinsReferrerZone(r: Referral, p: ZonePair) {
    r.referrerId == Some(p.0)
  }

  predicate JoinsRefereeZone(q: (Referral, Option<ZonePair>), p: ZonePair) {
    q.0.refereeId == Some(p.0)
  }

  function ZoneOfPair(p: Option<ZonePair>): Option<string> {
    if p.Some? then Some(p.value.1) else None
  }

  /** Both left joins against the pair map followed by the `final_tz` fill. */
  function ResolveZones(refs: seq<Referral>, users: seq<UserRecord>): (r: seq<ZoneResolved>)
    ensures |r| >= |refs|
    ensures forall x :: x in r ==> ZonedFrom(x, refs, users)
  {
    var tzMap := ZoneMap(users);
    var first := LeftJoin(refs, tzMap, JoinsReferrerZone);
    var rows := LeftJoin(first, tzMap, JoinsRefereeZone);
    var r := seq(|rows|, i requires 0 <= i < |rows| =>
      ZoneResolved(rows[i].0.0, ZoneOfPair(rows[i].0.1), ZoneOfPair(rows[i].1),
                   FinalTz(ZoneOfPair(rows[i].0.1), ZoneOfPair(rows[i].1))));
    assert forall i :: 0 <= i < |r| ==> ZonedFrom(r[i], refs, users) by {
      forall i | 0 <= i < |r| ensures ZonedFrom(r[i], refs, users) {
        assert rows[i] in rows;
        assert rows[i].0 in first;
        ZonedSide(users, rows[i].0.1, rows[i].0.0.referrerId);
        ZonedSide(users, rows[i].1, rows[i].0.0.refereeId);
      }
    }
    r
  }

  /** A zone the pair map attached for `id` belongs to a user row with that
      id. */
  lemma ZonedSide(users: seq<UserRecord>, p: Option<ZonePair>, id: Option<string>)
    requires p.Some? ==> p.value in ZoneMap(users) && id == Some(p.value.0)
    ensures ZoneOfPair(p).Some? ==> exists u :: u in users && u.userId == id && u.timezone == ZoneOfPair(p)
  {
    if p.Some? {
      assert p.value in ZonePairs(users);
    }
  }

  /** A row of the pair joins comes from one of the referrals, and each zone
      attached to it is the zone of a user row carrying that side's id. */
  predicate ZonedFrom(x: ZoneResolved, refs: seq<Referral>, users: seq<UserRecord>) {
    && x.referral in refs
    && (x.referrerTz.Some? ==> exists u :: u in users && u.userId == x.referral.referrerId && u.timezone == x.referrerTz)
    && (x.refereeTz.Some? ==> exists u :: u in users && u.userId == x.referral.refereeId && u.timezone == x.refereeTz)
    && x.finalTz == FinalTz(x.referrerTz, x.refereeTz)
  }

  /** Every user id carries at most one distinct home-club zone. */
  predicate ConsistentZones(users: seq<UserRecord>) {
    forall u, v ::
      (u in users && v in users && u.userId.Some? && u.userId == v.userId &&
       u.timezone.Some? && v.timezone.Some?) ==> u.timezone == v.timezone
  }

  /** The zone of the first user row that has both this id and a zone. */
  function ZoneOfUser(users: seq<UserRecord>, id: Option<string>): (r: Option<string>)
    ensures r.Some? ==> exists u :: u in users && u.userId == id && u.timezone == r
    ensures r.None? ==> id.None? || forall u :: u in users && u.userId == id ==> u.timezone.None?
  {
    if id.None? then None
    else
      var p := FirstWithKey(ZonePairs(users), PairUser, id.value);
      if p.None? then None else Some(p.value.1)
  }

  /** With consistent zones the pair map has unique user ids. */
  lemma ZoneMapUniqueUsers(users: seq<UserRecord>)
    requires ConsistentZones(users)
    ensures UniqueKeys(ZoneMap(users), PairUser)
  {
    var zm := ZoneMap(users);
    forall i, j | 0 <= i < j < |zm| ensures zm[i].0 != zm[j].0 {
      assert WholePair(zm[i]) != WholePair(zm[j]);
      if zm[i].0 == zm[j].0 {
        SameUserSamePair(users, zm[i], zm[j]);
      }
    }
  }

  /** With consistent zones two pairs of the same user are the same pair. */
  lemma SameUserSamePair(users: seq<UserRecord>, p: ZonePair, q: ZonePair)
    requires ConsistentZones(users)
    requires p in ZonePairs(users) && q in ZonePairs(users) && p.0 == q.0
    ensures p == q
  {
    var u :| u in users && u.userId == Some(p.0) && u.timezone == Some(p.1);
    var v :| v in users && v.userId == Some(q.0) && v.timezone == Some(q.1);
    assert u.timezone == v.timezone;
  }

  /** Every complete pair of the user table survives deduplication. */
  lemma ZoneMapKeepsPairs(users: seq<UserRecord>, p: ZonePair)
    requires p in ZonePairs(users)
    ensures p in ZoneMap(users)
  {
    assert FirstWithKey(ZoneMap(users), WholePair, p) == FirstWithKey(ZonePairs(users), WholePair, p);
  }

  /** With consistent zones, joining a row whose key is `id` against the pair
      map yields at most one match, carrying the zone `ZoneOfUser` finds. */
  lemma ZoneJoinIsLookup<L>(l: L, users: seq<UserRecord>, joins: (L, ZonePair) -> bool, id: Option<string>)
    requires ConsistentZones(users)
    requires forall p :: joins(l, p) <==> id == Some(p.0)
    ensures |Matching(l, ZoneMap(users), joins)| <= 1
    ensures ZoneOfPair(Lookup(l, ZoneMap(users), joins)) == ZoneOfUser(users, id)
  {
    var zm := ZoneMap(users);
    var pairs := ZonePairs(users);
    if id.Some? {
      ZoneMapUniqueUsers(users);
      KeyLookup(l, zm, joins, PairUser, id.value);
      var a := FirstWithKey(zm, PairUser, id.value);
      var b := FirstWithKey(pairs, PairUser, id.value);
      if b.Some? {
        ZoneMapKeepsPairs(users, b.value);
        assert a.Some?;
      }
      if a.Some? && b.Some? {
        assert a.value in pairs;
        var u :| u in users && u.userId == Some(a.value.0) && u.timezone == Some(a.value.1);
        var v :| v in users && v.userId == Some(b.value.0) && v.timezone == Some(b.value.1);
        assert u.timezone == v.timezone;
      }
    } else {
      NoMatchIsMissing(l, zm, joins);
    }
  }

  /** With consistent zones both pair joins are lookups: one row per referral,
      in order, with each side's zone and the referrer's zone falling back to
      the referee's. */
  lemma {:induction false} ResolveZonesIsLookup(refs: seq<Referral>, users: seq<UserRecord>)
    requires ConsistentZones(users)
    ensures |ResolveZones(refs, users)| == |refs|
    ensures forall i :: 0 <= i < |refs| ==>
      var row := ResolveZones(refs, users)[i];
      && row.referral == refs[i]
      && row.referrerTz == ZoneOfUser(users, refs[i].referrerId)
      && row.refereeTz == ZoneOfUser(users, refs[i].refereeId)
      && row.finalTz == FinalTz(row.referrerTz, row.refereeTz)
  {
    var tzMap := ZoneMap(users);
    forall i | 0 <= i < |refs|
      ensures |Matching(refs[i], tzMap, JoinsReferrerZone)| <= 1
      ensures ZoneOfPair(Lookup(refs[i], tzMap, JoinsReferrerZone)) == ZoneOfUser(users, refs[i].referrerId)
    {
      ZoneJoinIsLookup(refs[i], users, JoinsReferrerZone, refs[i].referrerId);
    }
    LeftJoinIsLookup(refs, tzMap, JoinsReferrerZone);
    var first := LeftJoin(refs, tzMap, JoinsReferrerZone);
    forall i | 0 <= i < |first|
      ensures |Matching(first[i], tzMap, JoinsRefereeZone)| <= 1
      ensures ZoneOfPair(Lookup(first[i], tzMap, JoinsRefereeZone)) == ZoneOfUser(users, refs[i].refereeId)
    {
      ZoneJoinIsLookup(first[i], users, JoinsRefereeZone, refs[i].refereeId);
    }
    LeftJoinIsLookup(first, tzMap, JoinsRefereeZone);
  }

  /** A referrer whose id carries two different zones in the user table
      makes the pair joins emit more rows than there are referrals. */
  lemma InconsistentZonesDuplicateRows(refs: seq<Referral>, users: seq<UserRecord>, i: nat, u: UserRecord, v: UserRecord)
    requires i < |refs| && u in users && v in users
    requires u.userId.Some? && u.userId == v.userId && refs[i].referrerId == u.userId
    requires u.timezone.Some? && v.timezone.Some? && u.timezone != v.timezone
    ensures |ResolveZones(refs, users)| > |refs|
  {
    var tzMap := ZoneMap(users);
    var a := (u.userId.value, u.timezone.value);
    var b := (v.userId.value, v.timezone.value);
    ZoneMapKeepsPairs(users, a);
    ZoneMapKeepsPairs(users, b);
    TwoMatchesGrowJoin(refs, tzMap, JoinsReferrerZone, i, a, b);
  }

  /** A resolved referral with its `referral_at_local`. */
  datatype Localised = Localised(row: ZoneResolved, referralAtLocal: Option<int>)

  /** `to_local` applied to every row's referral time and final zone. */
  function Localise(rows: seq<ZoneResolved>, zones: ZoneDb): seq<Localised> {
    seq(|rows|, i requires 0 <= i < |rows| =>
      Localised(rows[i], ToLocal(rows[i].referral.referralAt, rows[i].finalTz, zones)))
  }

  predicate HasLocalTime(r: Localised) { r.referralAtLocal.Some? }

  /** `dropna(subset=['referral_at_local'])`: the survivors are exactly the
      rows with a local time, in their original order. */
  function DropUnconverted(rows: seq<Localised>): (r: seq<Localised>)
    ensures forall x :: x in r ==> x in rows && x.referralAtLocal.Some?
    ensures forall x :: x in rows && x.referralAtLocal.Some? ==> x in r
    ensures IsSubsequence(r, rows)
    ensures forall x :: multiset(r)[x] == if x.referralAtLocal.Some? then multiset(rows)[x] else 0
  {
    FilterIsSubsequence(rows, HasLocalTime);
    FilterCounts(rows, HasLocalTime);
    Filter(rows, HasLocalTime)
  }

  /** The tail of src/timezone_cinversion.py: resolve zones, convert the
      referral time, drop rows that could not be converted. */
  function ConvertReferrals(refs: seq<Referral>, users: seq<UserRecord>, zones: ZoneDb): (r: seq<Localised>)
    ensures forall x :: x in r ==> ZonedFrom(x.row, refs, users)
    ensures forall x :: x in r ==>
      && x.row.referral.referralAt.Some? && x.row.finalTz.Some? && Text.Lower(x.row.finalTz.value) != "nan"
      && x.referralAtLocal == ToLocal(x.row.referral.referralAt, x.row.finalTz, zones)
  {
    var rows := ResolveZones(refs, users);
    var local := Localise(rows, zones);
    assert forall x :: x in local ==> x.row in rows && x.referralAtLocal == ToLocal(x.row.referral.referralAt, x.row.finalTz, zones) by {
      forall x | x in local ensures x.row in rows && x.referralAtLocal == ToLocal(x.row.referral.referralAt, x.row.finalTz, zones) {
        var i :| 0 <= i < |local| && local[i] == x;
      }
    }
    DropUnconverted(local)
  }

  /** With consistent zones, referral `i` survives the drop exactly when it
      has a referral time and the referrer's zone, or failing that the
      referee's, exists and is not the text "nan"; a referral neither of
      whose users has a zone is always dropped. */
  lemma {:induction false} SurvivesIff(refs: seq<Referral>, users: seq<UserRecord>, zones: ZoneDb, i: nat)
    requires ConsistentZones(users) && i < |refs|
    ensures |Localise(ResolveZones(refs, users), zones)| == |refs|
    ensures
      var tz := FinalTz(ZoneOfUser(users, refs[i].referrerId), ZoneOfUser(users, refs[i].refereeId));
      Localise(ResolveZones(refs, users), zones)[i] in ConvertReferrals(refs, users, zones) <==>
        refs[i].referralAt.Some? && tz.Some? && Text.Lower(tz.value) != "nan"
  {
    ResolveZonesIsLookup(refs, users);
  }
}
